=== FILE: README.md ===
# heuristic_date — a Dafny model of `interpret`

`heuristic_date.py` guesses a date in free text and returns `"YYYY"`,
`"YYYY-MM"`, `"YYYY-MM-DD"` or `None`. This project models its core,
`interpret`, stage by stage, and proves properties of it:

- **Runs** (`runs.dfy`): the input is cut into maximal runs of digits and
  non-digits (lines 110-116). The cut is shown to be the unique maximal-run
  split.
- **Decimal** (`decimal.dfy`): `int(x)` on digit strings, `str(n)`, the
  zero-padded `%0Nd` format, and `str.count`.
- **Bounds** (`bounds.dfy`): `YEAR_LOW`, `Y2K_LOW`, `Y2K_HIGH` and the
  predicates `is_year`, `is_y2k`, `is_month`, `is_day` (lines 62-98).
  `YEAR_HIGH` is the `yearHigh` field of a `Config`.
- **Tokens** (`tokens.dfy`): the strings the function keeps in its list `l`:
  plain text, or a tag "…y", "…d", "…n" or "…m" followed by digits.
- **Classifier** (`classifier.dfy`): the scan over the digit runs (lines
  118-171). It applies six shape rules that fix the date and stop the scan,
  then the year / day / candidate-number tags.
- **MonthNames** (`month_names.dfy`): the `MONTHS` catalogue and the
  month-name loop (lines 69-82 and 173-197), with Python's regex semantics.
  The leftmost match wins, and at one offset the first alternative wins.
  Across patterns, a strictly smaller `span()` wins.
- **Decision** (`decision.dfy`): the decision table (lines 199-237) from year,
  month, day and candidate numbers to a date of one of three granularities.
- **DateText** (`date_text.dfy`): the three output formats, and a reader
  that recovers the date from the text.
- **HeuristicDate** (`heuristic_date.dfy`): `interpret` end to end.
- **Promises** (`promises.dfy`): the promises of the module documentation
  (lines 32-55), proved for whole families of inputs.
- **Examples** (`examples_docstring.dfy`): the documentation's sample inputs,
  and the two-digit-year discrepancy below, as concrete instances.

`Config(yearHigh, fixYyMm)` replaces the environment. `yearHigh` is the
current year that the source reads from `time.localtime()`.
`fixYyMm = false` is the code as written. `fixYyMm = true` is the corrected
four-digit `yyMM` rule (see Findings). Every general lemma holds for every
configuration unless it says otherwise.

Where prose descriptions of this program and its code differ, the model
follows the code:
- The shape rules at lines 124-152 do not test `year is None`. A later
  eight- or six-digit block therefore overwrites a year, and possibly a day,
  found earlier. The `yyyyMM` and `yyMM` rules also reset `day` to `None`
  (`Classifier.Commit`).
- The two-candidate rule (lines 223-233) runs even when a month name was
  found, and it then takes precedence over that month.
- The `yyMM` rule (line 155) does not add 1900 to the year.

## Model

| member | source | states |
|---|---|---|
| Runs.Tokenize | heuristic_date.py:110-116 | the runs concatenate back to the input; each is all digits or all non-digits; neighbouring runs differ in class |
| Runs.RunSplitUnique | heuristic_date.py:110-116 | any split of the input into maximal runs is exactly the tokenizer's output, so the split is unique |
| Decimal.Value | heuristic_date.py:121 | `int(x)` of a run of digits, leading zeros allowed, is below 10 to the power of the run's length |
| Decimal.Padded | heuristic_date.py:209 | `%0Nd` yields exactly N digits, or the plain decimal rendering of the number when that is longer, and the digits read back as the number |
| Decimal.Count | heuristic_date.py:227 | `x.count(sep)` for a one-character `sep` never exceeds the length of `x` |
| Decimal.CountConcat | heuristic_date.py:224-227 | counting a character over a concatenation adds up the counts of the parts |
| Runs.Join | heuristic_date.py:224 | `"".join(l)`; it carries no contract of its own, and its partner `Runs.JoinAppend` states its behaviour |
| Runs.JoinAppend | heuristic_date.py:224 | joining two lists one after the other gives the join of their concatenation |
| Bounds.IsYear | heuristic_date.py:84-86 | `is_year`: 1900..`YEAR_HIGH`; such a year is neither a two-digit year nor a day number |
| Bounds.IsY2k | heuristic_date.py:88-90 | `is_y2k`: 32..99; no day number is a two-digit year, which the module's `assert Y2K_LOW > 31` (line 67) secures |
| Bounds.IsMonth | heuristic_date.py:92-94 | `is_month`: 1..12; every month number is also a day number |
| Bounds.IsDay | heuristic_date.py:96-98 | `is_day`: 1..31; a day number has at most two digits |
| Tokens.Render | heuristic_date.py:161-170 | a run is kept as it is; a tag is the marker, its letter and its digits, and reading the tag string back recovers the tag, as line 194 reads the month back with `l[n][2:]` |
| Decimal.ValueConcat | heuristic_date.py:124-158 | reading the digits of a block equals reading its head, shifted past its tail, plus its tail (how the slices `x[:4]`, `x[4:6]`, `x[6:]` compose) |
| Classifier.ShapeRule | heuristic_date.py:124-158 | (the converse, that every block in one of the six layouts is claimed, is stated by the `ShapeClaims` lemmas) a shape fires only on 8 or 6 digits, or on 4 digits while no year is known. The month it commits passes `is_month` and the day `is_day`. The year is in the year window, or is a two-digit year plus 1900. Only as written, the `yyMM` year may be a bare two-digit value. An 8-digit shape always carries a checked four-digit year and a day, and a 4-digit shape never has a day |
| Classifier.ShapeReads8 | heuristic_date.py:124-134 | an 8-digit shape uses every digit: the block reads as yyyyMMdd or as ddMMyyyy |
| Classifier.ShapeReads6 | heuristic_date.py:136-152 | a 6-digit shape reads as yyyyMM, or as yyMMdd / ddMMyy with the century 1900 added to the two-digit year |
| Classifier.ShapeReads4 | heuristic_date.py:154-158 | a 4-digit shape reads as yyMM. The year is the bare two digits as written, and those digits plus 1900 once repaired |
| Classifier.ShapeClaims8 | heuristic_date.py:124-128 | an 8-digit block laid out as yyyyMMdd, with a year, month and day in their windows, is claimed and read that way |
| Classifier.ShapeClaims8DayFirst | heuristic_date.py:124-134 | an 8-digit block laid out as ddMMyyyy is claimed and read that way; the yyyyMMdd rule never pre-empts it, since the year's first two digits are no month |
| Classifier.ShapeClaims6 | heuristic_date.py:136-140 | a 6-digit block laid out as yyyyMM is claimed and read that way, with no day |
| Classifier.ShapeClaims6Y2kFirst | heuristic_date.py:136-146 | a 6-digit yyMMdd block is claimed; it is read as yyMMdd with 1900 added unless its first four digits also pass as a year and its last two as a month, when the yyyyMM rule takes it first |
| Classifier.ShapeClaims6Y2kLast | heuristic_date.py:136-152 | a 6-digit ddMMyy block is claimed and read that way with 1900 added; no earlier rule can take it |
| Classifier.ShapeClaims4 | heuristic_date.py:154-158 | while no year is known, a 4-digit yyMM block is claimed, with the year as line 155 computes it |
| Classifier.Commit | heuristic_date.py:125-157 | a shape sets year and month, sets or clears the day, overriding what earlier runs found, and keeps the candidates found so far |
| Classifier.TagRun | heuristic_date.py:160-171 | a run becomes the year exactly when it is a 4-digit year or a 2-digit year while no year is known. It becomes the day exactly when it is 13..31 in two digits while no day is known. Otherwise it becomes a candidate exactly when it is non-zero and at most two digits. Every token keeps the run's digits: a 4-digit year tag holds the run as written and a 2-digit one holds "19" in front of it. Each tag matches the one piece of evidence it changed |
| Classifier.ClassifyRuns | heuristic_date.py:118-171 | one token per run, rendering that run. Candidates are only appended. A scan that does not stop keeps a known year, day and month. A stopped scan has fixed year and month |
| Classifier.FirstYearWins | heuristic_date.py:160-165 | without a shape rule, the year is the one offered by the leftmost run that offers any |
| Classifier.ShapeStops | heuristic_date.py:124-158 | the first run claimed by a shape rule ends the scan: it and every later run stay plain text, and the result is the evidence before it with the shape committed |
| MonthNames.FirstWordAt | heuristic_date.py:178-179 | at one offset the alternation takes the first listed word that fits, and no earlier word fits |
| MonthNames.SearchFrom | heuristic_date.py:179 | `regex.search` gives the leftmost offset at which some word fits, with the length of the first word that fits there. It returns nothing exactly when no word fits at any offset |
| MonthNames.Best | heuristic_date.py:176-184 | the pick is the match of the entry it names |
| MonthNames.BestNoneIffNoMatch | heuristic_date.py:176-187 | no pick exactly when no catalogue pattern matches the token |
| MonthNames.BestIsLeast | heuristic_date.py:182 | the picked span is not beaten by any entry's span. An entry listed before the pick matches strictly later (ties keep the earliest entry) |
| MonthNames.PickOnly | heuristic_date.py:176-184 | when exactly one pattern matches, it is the pick wherever it is listed |
| MonthNames.NoOpeningNoMatch | heuristic_date.py:179 | a pattern cannot match where none of its words' first two letters stand side by side, ignoring case |
| MonthNames.FindMonthToken | heuristic_date.py:174-187 | the token found lies in range, its pick is the catalogue's pick for that token, and its month is that pattern's month |
| MonthNames.FindMonthTokenFirst | heuristic_date.py:174-187 | every token before the one found has no match, and when none is found no token has one |
| MonthNames.Catalogue | heuristic_date.py:69-82 | the twelve patterns in calendar order, each with its alternatives in the order written; its properties are stated by `CatalogueMonthsInRange` and `CatalogueLowercaseWords` |
| MonthNames.Splice | heuristic_date.py:188-197 | the token becomes the text before the match (only when the match does not start the token), then the month tag, then the text after the match (only when the match does not end it). The pieces are exactly those, in that order, so no empty piece is inserted and the first and last entries are the ones lines 225 and 229 read |
| MonthNames.SpliceKeepsText | heuristic_date.py:188-197 | the pieces inserted for the token join to its text with only the matched word replaced by the month tag |
| MonthNames.MatchMonthName | heuristic_date.py:173-197 | with nothing found the list is unchanged; a month found is in 1..12 for a catalogue of months |
| MonthNames.MatchReplacesWord | heuristic_date.py:188-197 | after matching, the joined list equals the joined list before, with only the matched word of the found token replaced by the month tag |
| MonthNames.MatchKeepsSeparators | heuristic_date.py:188-197 | month matching never changes the number of '-' or '.' in the joined list |
| MonthNames.NoLetterPairsNoName | heuristic_date.py:173-187 | tokens without two neighbouring letters (all tags, and gaps such as " " or "-") never yield a month |
| MonthNames.CatalogueMonthsInRange | heuristic_date.py:69-82 | every catalogue pattern names a month in 1..12 |
| MonthNames.CatalogueLowercaseWords | heuristic_date.py:69-82 | every catalogue word is lower-case ASCII letters, so no match holds a separator |
| Decision.Decide | heuristic_date.py:199-237 | no date exactly when no year. The year is always the evidence's year, and the month and day emitted passed `is_month` / `is_day`. An emitted month or day is the one found or one of the candidates. Full evidence is emitted as found, and a known month survives unless two candidates remain. A lone candidate fills the one missing field it fits: the day after a known month, the month before a known day, or the month of a year-month when neither is known; a lone candidate that fits no missing field is dropped. With no month or day known, a full date needs two candidates, exactly two '-' or two '.', and a year tag last (day-month-year) or first (year-month-day). When month and day are not both known, two candidates decide the date even over a known month or day: day-month-year with a year tag last, else year-month-day with a year tag first, each needing the candidates to fit and exactly two '-' or two '.'; otherwise the known month alone, else the year alone |
| DateText.Format | heuristic_date.py:209-237 | the three formats hold 0, 1 and 2 dashes respectively, and at least four characters |
| DateText.FormatFields | heuristic_date.py:209-237 | the text splits at '-' into one field per number shown, each the `%04d` (year) or `%02d` (month, day) rendering of that number |
| DateText.ParseFormat | heuristic_date.py:209-237 | reading the text of any date gives that date back |
| DateText.FormatInjective | heuristic_date.py:209-237 | distinct dates give distinct texts |
| HeuristicDate.Read | heuristic_date.py:105-237 | the runs split the input. The evidence is well formed, and the year, day and candidates are the scan's. The classification is the scan over those runs. The name is looked for, over the scan's tokens, only when the scan left the month unset. The month is the scan's or the name's, and stays unset when neither gives one. The date is the decision table's verdict on the final evidence and token list, and there is none exactly when there is no year |
| HeuristicDate.Interpret | heuristic_date.py:100-237 | the answer is the zero-padded text of exactly the date the decision table settled on for the input, so it carries the month and day whenever the table found them. Every answer reads back as a date whose year passed the year windows and whose month and day are in range. There is an answer exactly when a year was found |
| HeuristicDate.NoResultIffNoYear | heuristic_date.py:199-200 | `None` exactly when no shape rule fired and no run offers a year |
| HeuristicDate.LeftmostYearWins | heuristic_date.py:52-53 | without a shape rule, the year returned is the one of the leftmost run offering a year |
| HeuristicDate.SeparatorsKept | heuristic_date.py:224-231 | the '-' and '.' counts of the joined list are those of the input |
| HeuristicDate.FullDateNeedsSeparators | heuristic_date.py:47-48 | without a month or day from elsewhere, a full date needs exactly two '-' or exactly two '.' in the input |
| HeuristicDate.CorrectedYearsInRange | heuristic_date.py:38-40 | with the `yyMM` rule repaired (and a present year of 1999 or later), every year returned lies in 1900..present |
| Promises.OrderDoesNotMatter | heuristic_date.py:44-45 | a year, a day over 12 and a month number give the same full date in all six orders |
| Promises.DayMonthYear | heuristic_date.py:226-228 | two day-or-month numbers, exactly two '.' or two '-', and the year last: read day-month-year |
| Promises.YearMonthDay | heuristic_date.py:229-232 | the year first with the same separators: read year-month-day |
| Promises.AmbiguousYearFirst | heuristic_date.py:50 | the year first and two day-or-month numbers with no separator evidence: only the year |
| Promises.AmbiguousYearLast | heuristic_date.py:50 | the same with the year last |
| Promises.YearDayLeftover | heuristic_date.py:166-171 | a year, a day over 12, then a second two-digit number over 12: the second is left over as a candidate that can be no month, so only the year is returned |
| Promises.NamedMonthYearDay | heuristic_date.py:45 | leading text naming a month, then a year and a day number: the full date with the named month |
| Examples.YearDayMonth | heuristic_date.py:45 | "1983 31 12" gives "1983-12-31" |
| Examples.MonthDayYear | heuristic_date.py:44-45 | "12 31 1983" gives "1983-12-31" |
| Examples.NamedMonthFirst | heuristic_date.py:45 | "aug 1923 12" gives "1923-08-12" |
| Examples.DottedDayMonthYear | heuristic_date.py:47-48 | "12.11.1983" gives "1983-11-12" |
| Examples.DashedYearMonthDay | heuristic_date.py:47-48 | "1983-11-12" gives "1983-11-12" |
| Examples.AmbiguousGivesYear | heuristic_date.py:50 | "1983 5 6" gives "1983" |
| Examples.YearFirstBlock | heuristic_date.py:124-128 | "20230415" gives "2023-04-15" |
| Examples.DayFirstBlock | heuristic_date.py:130-134 | "15042023" gives "2023-04-15" |
| Examples.TwoDigitYearBlock | heuristic_date.py:136-146 | "990101" gives "1999-01-01" while 9901 is not yet a year |
| Examples.DayAndLeftoverGiveYear | heuristic_date.py:217-237 | "1983 15 20" gives "1983" |
| Examples.Read8304 | heuristic_date.py:154-158 | under either reading of line 155, "8304" decides to year-month with month 4 and the `yyMM` year of 83 |
| Examples.YyMmAsWritten | heuristic_date.py:154-158 | as written, "8304" gives "0083-04", a year outside the promised window |
| Examples.YyMmRepaired | heuristic_date.py:154-158 | repaired, "8304" gives "1983-04" |

## Left out

- `main_tty`, `main_batch` and the `__main__` block (lines 239-263): console input and printing only.
- `time.localtime()` (line 63): the present year is the `yearHigh` parameter.
- Unicode: `str.isdigit` and `re.IGNORECASE` are modelled for ASCII. Other Unicode digits and case pairs are not modelled.
- Empty input: the source raises `IndexError` at line 111. `Read` and `Interpret` require a non-empty input instead of modelling the exception.
- Calendar validity: like the source, nothing checks that a day exists in its month (31 February is returned as given).
- HeuristicDate.CorrectedYearsInRange: the 1900..present range is proved only for the repaired `yyMM` rule. As written, the rule breaks it (see Findings). The proof also requires a present year of at least 1999, because a two-digit year can mean 1999.
- Promises.OrderDoesNotMatter: proved for inputs of three numbers separated by the same gap. Mixed gaps and surrounding text are not covered.
- Promises.DayMonthYear: proved for three numbers separated by a single '-' or a single '.'. Longer gaps holding two separators (such as "12 . 11 . 1983"), mixed gaps and surrounding text are not covered.
- Promises.YearMonthDay: proved for three numbers separated by a single '-' or a single '.'. Longer gaps holding two separators, mixed gaps and surrounding text are not covered.
- Promises.NamedMonthYearDay: proved for a name in the leading text followed by a year and a day number. Other placements of the name are not covered.

## Findings

| source | as written | input that shows it | evidently intended | confidence | as-written member | corrected member |
|---|---|---|---|---|---|---|
| heuristic_date.py:155 | `year = int(x[:2])`: the `yyMM` rule keeps the bare two-digit year, while every other two-digit-year rule adds 1900 (lines 143, 149, 165) | "8304" | "1983-04", a year in 1932..1999 as the documentation promises (line 40) | not executed | Examples.YyMmAsWritten, Examples.Read8304 | Examples.YyMmRepaired, Classifier.ShapeReads4, HeuristicDate.CorrectedYearsInRange |

=== FILE: bounds.dfy ===
/**
 * The acceptance windows of heuristic_date.py:62-98 and the one value the
 * source reads from its environment, the upper year bound.
 */
module Bounds {

  const YearLow: nat := 1900
  const Y2kLow: nat := 32
  const Y2kHigh: nat := 99

  /**
   * `yearHigh` stands for `YEAR_HIGH`, the calendar year when the process
   * started. `fixYyMm` selects the reading of the four-digit yyMM rule:
   * `false` is the code as written (the year is the bare two-digit value),
   * `true` adds the century as every other two-digit-year rule does.
   */
  datatype Config = Config(yearHigh: nat, fixYyMm: bool)

  /** `is_year`: a four-digit year in [1900, YEAR_HIGH]. */
  predicate IsYear(cfg: Config, v: nat)
    ensures IsYear(cfg, v) ==> !IsY2k(v) && !IsDay(v)
  {
    YearLow <= v <= cfg.yearHigh
  }

  /** `is_y2k`: a two-digit year in [32, 99], meaning 1932..1999. No day
      number is a two-digit year, which the module-level `assert Y2K_LOW > 31`
      guarantees and the rule order relies on. */
  predicate IsY2k(v: nat)
    ensures IsY2k(v) ==> !IsDay(v)
  {
    Y2kLow <= v <= Y2kHigh
  }

  /** `is_month`: every month number is also a day number. */
  predicate IsMonth(v: nat)
    ensures IsMonth(v) ==> IsDay(v)
  {
    1 <= v <= 12
  }

  /** `is_day`: a day number has at most two digits. */
  predicate IsDay(v: nat)
    ensures IsDay(v) ==> v < 100
  {
    1 <= v <= 31
  }

  /** The years the engine can commit to: a checked four-digit year, a
      two-digit year plus 1900, or, in the code as written, the bare
      two-digit year of the yyMM rule. */
  predicate YearOk(cfg: Config, y: nat) {
    || IsYear(cfg, y)
    || (YearLow + Y2kLow <= y <= YearLow + Y2kHigh)
    || (!cfg.fixYyMm && IsY2k(y))
  }
}

=== FILE: classifier.dfy ===
/**
 * The numeric classifier of `interpret` (heuristic_date.py:118-171): an ordered
 * rule chain over the digit runs. A shape rule on an 8-, 6- or 4-digit block
 * fixes the date and stops the scan; otherwise the run may be tagged as a year,
 * a day over 12, or a leftover candidate number.
 */
module Classifier {
  import opened Wrappers
  import opened Decimal
  import opened Bounds
  import opened Tokens

  /** The partial date (`year`, `month`, `day`) and the candidate numbers `nbrs`. */
  datatype Evidence = Evidence(year: Option<nat>, month: Option<nat>, day: Option<nat>, nbrs: seq<nat>)

  const NoEvidence: Evidence := Evidence(None, None, None, [])

  /** Every committed value lies in the window that admitted it. */
  predicate WellFormed(cfg: Config, ev: Evidence) {
    && (ev.year.Some? ==> YearOk(cfg, ev.year.value))
    && (ev.month.Some? ==> IsMonth(ev.month.value))
    && (ev.day.Some? ==> IsDay(ev.day.value))
    && (forall i :: 0 <= i < |ev.nbrs| ==> 1 <= ev.nbrs[i] <= 99)
  }

  /** What a shape rule commits: year, month and possibly day. */
  datatype Shape = Shape(year: nat, month: nat, day: Option<nat>)

  /** heuristic_date.py:155: the year of the yyMM rule. */
  function YyMmYear(cfg: Config, yy: nat): nat {
    if cfg.fixYyMm then YearLow + yy else yy
  }

  /**
   * heuristic_date.py:124-158, tried in this order: yyyyMMdd, ddMMyyyy, yyyyMM,
   * yyMMdd, ddMMyy, and, only while no year is known, yyMM.
   */
  function ShapeRule(cfg: Config, x: string, yearUnset: bool): (r: Option<Shape>)
    requires IsNumeral(x)
    ensures r.Some? ==> IsMonth(r.value.month) && YearOk(cfg, r.value.year)
    ensures r.Some? && r.value.day.Some? ==> IsDay(r.value.day.value)
    ensures r.Some? ==> |x| == 8 || |x| == 6 || (|x| == 4 && yearUnset)
    ensures r.Some? && |x| == 8 ==> r.value.day.Some? && IsYear(cfg, r.value.year)
    ensures r.Some? && |x| == 4 ==> r.value.day.None?
  {
    assert |x| >= 4 ==> DigitsOnly(x[..2]) && DigitsOnly(x[..4]) && DigitsOnly(x[2..]) && DigitsOnly(x[4..]) && DigitsOnly(x[2..4]);
    assert |x| >= 6 ==> DigitsOnly(x[4..6]) && DigitsOnly(x[6..]);
    if |x| == 8 && IsYear(cfg, Value(x[..4])) && IsMonth(Value(x[4..6])) && IsDay(Value(x[6..])) then
      Some(Shape(Value(x[..4]), Value(x[4..6]), Some(Value(x[6..]))))
    else if |x| == 8 && IsDay(Value(x[..2])) && IsMonth(Value(x[2..4])) && IsYear(cfg, Value(x[4..])) then
      Some(Shape(Value(x[4..]), Value(x[2..4]), Some(Value(x[..2]))))
    else if |x| == 6 && IsYear(cfg, Value(x[..4])) && IsMonth(Value(x[4..])) then
      Some(Shape(Value(x[..4]), Value(x[4..]), None))
    else if |x| == 6 && IsY2k(Value(x[..2])) && IsMonth(Value(x[2..4])) && IsDay(Value(x[4..])) then
      Some(Shape(YearLow + Value(x[..2]), Value(x[2..4]), Some(Value(x[4..]))))
    else if |x| == 6 && IsDay(Value(x[..2])) && IsMonth(Value(x[2..4])) && IsY2k(Value(x[4..])) then
      Some(Shape(YearLow + Value(x[4..]), Value(x[2..4]), Some(Value(x[..2]))))
    else if yearUnset && |x| == 4 && IsY2k(Value(x[..2])) && IsMonth(Value(x[2..])) then
      Some(Shape(YyMmYear(cfg, Value(x[..2])), Value(x[2..]), None))
    else
      None
  }

  /** Reading `x` as its first `i` digits followed by the rest. */
  lemma ValueSplit(x: string, i: nat)
    requires DigitsOnly(x) && i <= |x|
    ensures Value(x) == Value(x[..i]) * Pow10(|x| - i) + Value(x[i..])
  {
    assert x[..i] + x[i..] == x;
    ValueConcat(x[..i], x[i..]);
  }

  lemma Blocks8(x: string)
    requires IsNumeral(x) && |x| == 8
    ensures Value(x) == Value(x[..4]) * 10000 + Value(x[4..6]) * 100 + Value(x[6..])
    ensures Value(x) == Value(x[..2]) * 1000000 + Value(x[2..4]) * 10000 + Value(x[4..])
  {
    Blocks8YearFirst(x);
    Blocks8DayFirst(x);
  }

  lemma Blocks8YearFirst(x: string)
    requires IsNumeral(x) && |x| == 8
    ensures Value(x) == Value(x[..4]) * 10000 + Value(x[4..6]) * 100 + Value(x[6..])
  {
    assert Pow10(2) == 100 && Pow10(4) == 10000;
    ValueSplit(x, 4);
    ValueSplit(x[4..], 2);
    assert x[4..][..2] == x[4..6] && x[4..][2..] == x[6..];
  }

  lemma Blocks8DayFirst(x: string)
    requires IsNumeral(x) && |x| == 8
    ensures Value(x) == Value(x[..2]) * 1000000 + Value(x[2..4]) * 10000 + Value(x[4..])
  {
    assert Pow10(4) == 10000 && Pow10(6) == 1000000;
    ValueSplit(x, 2);
    ValueSplit(x[2..], 2);
    assert x[2..][..2] == x[2..4] && x[2..][2..] == x[4..];
  }

  lemma Blocks6(x: string)
    requires IsNumeral(x) && |x| == 6
    ensures Value(x) == Value(x[..4]) * 100 + Value(x[4..])
    ensures Value(x) == Value(x[..2]) * 10000 + Value(x[2..4]) * 100 + Value(x[4..])
  {
    assert Pow10(2) == 100 && Pow10(4) == 10000;
    ValueSplit(x, 4);
    ValueSplit(x, 2);
    ValueSplit(x[2..], 2);
    assert x[2..][..2] == x[2..4] && x[2..][2..] == x[4..];
  }

  lemma Blocks4(x: string)
    requires IsNumeral(x) && |x| == 4
    ensures Value(x) == Value(x[..2]) * 100 + Value(x[2..])
  {
    assert Pow10(2) == 100;
    ValueSplit(x, 2);
  }

  /**
   * A shape reading uses every digit of the block, in one of the layouts of
   * heuristic_date.py:124-152: on eight digits yyyyMMdd or ddMMyyyy.
   */
  lemma ShapeReads8(cfg: Config, x: string, yearUnset: bool, sh: Shape)
    requires IsNumeral(x) && |x| == 8 && ShapeRule(cfg, x, yearUnset) == Some(sh)
    ensures sh.day.Some?
    ensures || Value(x) == sh.year * 10000 + sh.month * 100 + sh.day.value
            || Value(x) == sh.day.value * 1000000 + sh.month * 10000 + sh.year
  {
    Blocks8(x);
  }

  /** On six digits: yyyyMM, yyMMdd or ddMMyy, two-digit years counted from 1900. */
  lemma ShapeReads6(cfg: Config, x: string, yearUnset: bool, sh: Shape)
    requires IsNumeral(x) && |x| == 6 && ShapeRule(cfg, x, yearUnset) == Some(sh)
    ensures sh.day.None? ==> Value(x) == sh.year * 100 + sh.month
    ensures sh.day.Some? ==>
              || Value(x) == (sh.year - YearLow) * 10000 + sh.month * 100 + sh.day.value
              || Value(x) == sh.day.value * 10000 + sh.month * 100 + (sh.year - YearLow)
  {
    Blocks6(x);
  }

  /** On four digits: yyMM, the year being the bare two digits as written. */
  lemma ShapeReads4(cfg: Config, x: string, yearUnset: bool, sh: Shape)
    requires IsNumeral(x) && |x| == 4 && ShapeRule(cfg, x, yearUnset) == Some(sh)
    ensures Value(x) == (if cfg.fixYyMm then sh.year - YearLow else sh.year) * 100 + sh.month
  {
    Blocks4(x);
  }

  /** Two base-100 places are read back uniquely. */
  lemma Places100(q: nat, r: nat, q2: nat, r2: nat)
    requires r < 100 && r2 < 100 && q * 100 + r == q2 * 100 + r2
    ensures q == q2 && r == r2
  {
  }

  /** The same for four-digit places. */
  lemma Places10000(q: nat, r: nat, q2: nat, r2: nat)
    requires r < 10000 && r2 < 10000 && q * 10000 + r == q2 * 10000 + r2
    ensures q == q2 && r == r2
  {
  }

  /**
   * The converse of the readings above: a block laid out as yyyyMMdd with a
   * year, a month and a day in their windows is claimed by the first rule.
   */
  lemma ShapeClaims8(cfg: Config, x: string, yearUnset: bool, y: nat, m: nat, d: nat)
    requires IsNumeral(x) && |x| == 8
    requires IsYear(cfg, y) && IsMonth(m) && IsDay(d)
    requires Value(x) == y * 10000 + m * 100 + d
    ensures ShapeRule(cfg, x, yearUnset) == Some(Shape(y, m, Some(d)))
  {
    var a, b, c := Value(x[..4]), Value(x[4..6]), Value(x[6..]);
    Blocks8YearFirst(x);
    assert b < Pow10(2) == 100 && c < Pow10(2);
    Places100(a * 100 + b, c, y * 100 + m, d);
    Places100(a, b, y, m);
  }

  /** ddMMyyyy: the second rule, which the first never pre-empts, since the
      year's leading digits (19 or more) are no month. */
  lemma ShapeClaims8DayFirst(cfg: Config, x: string, yearUnset: bool, d: nat, m: nat, y: nat)
    requires IsNumeral(x) && |x| == 8
    requires IsDay(d) && IsMonth(m) && IsYear(cfg, y) && y < 10000
    requires Value(x) == d * 1000000 + m * 10000 + y
    ensures ShapeRule(cfg, x, yearUnset) == Some(Shape(y, m, Some(d)))
  {
    var dd, mm, yyyy := Value(x[..2]), Value(x[2..4]), Value(x[4..]);
    Blocks8DayFirst(x);
    assert yyyy < Pow10(4) == 10000 && mm < Pow10(2) == 100;
    Places10000(dd * 100 + mm, yyyy, d * 100 + m, y);
    Places100(dd, mm, d, m);
    var b, c := Value(x[4..6]), Value(x[6..]);
    ValueSplit(x[4..], 2);
    assert x[4..][..2] == x[4..6] && x[4..][2..] == x[6..];
    assert c < Pow10(2);
    assert b * 100 + c == y;
    assert !IsMonth(b);
  }

  /** yyyyMM on six digits. */
  lemma ShapeClaims6(cfg: Config, x: string, yearUnset: bool, y: nat, m: nat)
    requires IsNumeral(x) && |x| == 6
    requires IsYear(cfg, y) && IsMonth(m)
    requires Value(x) == y * 100 + m
    ensures ShapeRule(cfg, x, yearUnset) == Some(Shape(y, m, None))
  {
    var a, b := Value(x[..4]), Value(x[4..]);
    ValueSplit(x, 4);
    assert b < Pow10(2) == 100;
    Places100(a, b, y, m);
  }

  /** yyMMdd: claimed, and read this way unless its first four digits also
      pass as a year and its last two as a month (then yyyyMM comes first). */
  lemma ShapeClaims6Y2kFirst(cfg: Config, x: string, yearUnset: bool, yy: nat, m: nat, d: nat)
    requires IsNumeral(x) && |x| == 6
    requires IsY2k(yy) && IsMonth(m) && IsDay(d)
    requires Value(x) == yy * 10000 + m * 100 + d
    ensures ShapeRule(cfg, x, yearUnset).Some?
    ensures !(IsYear(cfg, yy * 100 + m) && IsMonth(d)) ==>
              ShapeRule(cfg, x, yearUnset) == Some(Shape(YearLow + yy, m, Some(d)))
  {
    var a, b, c := Value(x[..2]), Value(x[2..4]), Value(x[4..]);
    Blocks6(x);
    assert b < Pow10(2) == 100 && c < Pow10(2);
    Places100(a * 100 + b, c, yy * 100 + m, d);
    Places100(a, b, yy, m);
    assert Value(x[..4]) == yy * 100 + m;
  }

  /** ddMMyy: a day is never a two-digit year nor a two-digit year a month,
      so only the fifth rule applies. */
  lemma ShapeClaims6Y2kLast(cfg: Config, x: string, yearUnset: bool, d: nat, m: nat, yy: nat)
    requires IsNumeral(x) && |x| == 6
    requires IsDay(d) && IsMonth(m) && IsY2k(yy)
    requires Value(x) == d * 10000 + m * 100 + yy
    ensures ShapeRule(cfg, x, yearUnset) == Some(Shape(YearLow + yy, m, Some(d)))
  {
    var a, b, c := Value(x[..2]), Value(x[2..4]), Value(x[4..]);
    Blocks6(x);
    assert b < Pow10(2) == 100 && c < Pow10(2);
    Places100(a * 100 + b, c, d * 100 + m, yy);
    Places100(a, b, d, m);
    assert !IsMonth(c) && !IsY2k(a);
  }

  /** yyMM, while no year is known. */
  lemma ShapeClaims4(cfg: Config, x: string, yy: nat, m: nat)
    requires IsNumeral(x) && |x| == 4
    requires IsY2k(yy) && IsMonth(m)
    requires Value(x) == yy * 100 + m
    ensures ShapeRule(cfg, x, true) == Some(Shape(YyMmYear(cfg, yy), m, None))
  {
    var a, b := Value(x[..2]), Value(x[2..]);
    ValueSplit(x, 2);
    assert b < Pow10(2) == 100;
    Places100(a, b, yy, m);
  }

  /** The classifier's output for one digit run that no shape rule claimed. */
  datatype Tagged = Tagged(token: Token, ev: Evidence)

  /**
   * heuristic_date.py:160-171: a four-digit year or a two-digit year while no
   * year is known, else a day over 12 while no day is known, else a non-zero
   * run of at most two digits as a candidate number; anything else stays as text.
   */
  function TagRun(cfg: Config, x: string, ev: Evidence): (r: Tagged)
    requires IsNumeral(x)
    ensures Renders(r.token, x)
    ensures r.ev.month == ev.month
    ensures ev.year.Some? ==> r.ev.year == ev.year
    ensures ev.year.None? && |x| == 4 ==>
              && (r.ev.year.Some? <==> IsYear(cfg, Value(x)))
              && (r.ev.year.Some? ==> r.ev.year.value == Value(x))
    ensures ev.year.None? && |x| == 2 ==>
              && (r.ev.year.Some? <==> IsY2k(Value(x)))
              && (r.ev.year.Some? ==> r.ev.year.value == YearLow + Value(x))
    ensures |x| != 2 && |x| != 4 ==> r.ev.year == ev.year
    ensures ev.day.Some? ==> r.ev.day == ev.day
    ensures ev.day.None? ==>
              && (r.ev.day.Some? <==> |x| == 2 && 12 < Value(x) <= 31)
              && (r.ev.day.Some? ==> r.ev.day.value == Value(x))
    ensures || r.ev.nbrs == ev.nbrs
            || (r.ev.nbrs == ev.nbrs + [Value(x)] && |x| <= 2 && Value(x) != 0)
    // a non-zero run of at most two digits taken neither as year nor as day is a candidate
    ensures r.ev.year == ev.year && r.ev.day == ev.day && |x| <= 2 && Value(x) != 0 ==>
              r.ev.nbrs == ev.nbrs + [Value(x)]
    ensures r.token.YearTag? <==> r.ev.year != ev.year
    // a four-digit year keeps its digits, a two-digit one gets "19" in front
    ensures r.token.YearTag? ==> r.token.digits == if |x| == 2 then "19" + x else x
    ensures r.token.DayTag? <==> r.ev.day != ev.day
    ensures r.token.NumTag? <==> r.ev.nbrs != ev.nbrs
    ensures WellFormed(cfg, ev) ==> WellFormed(cfg, r.ev)
  {
    var v := Value(x);
    assert |x| <= 2 ==> v < 100 by {
      assert Pow10(1) == 10 && Pow10(2) == 100;
    }
    if ev.year.None? && |x| == 4 && IsYear(cfg, v) then
      Tagged(YearTag(x), ev.(year := Some(v)))
    else if ev.year.None? && |x| == 2 && IsY2k(v) then
      Tagged(YearTag("19" + x), ev.(year := Some(YearLow + v)))
    else if ev.day.None? && |x| == 2 && v > 12 && IsDay(v) then
      Tagged(DayTag(x), ev.(day := Some(v)))
    else if |x| <= 2 && v != 0 then
      Tagged(NumTag(x), ev.(nbrs := ev.nbrs + [v]))
    else
      Tagged(Text(x), ev)
  }

  /** The token list and evidence after the scan, and the index of the run
      whose shape rule stopped it, if one did. */
  datatype Classified = Classified(tokens: seq<Token>, ev: Evidence, stoppedAt: Option<nat>)

  /** heuristic_date.py:119-171: the scan over the runs, left to right. */
  function ClassifyRuns(cfg: Config, runs: seq<string>, ev: Evidence): (r: Classified)
    ensures |r.tokens| == |runs|
    ensures forall i :: 0 <= i < |runs| ==> Renders(r.tokens[i], runs[i])
    ensures WellFormed(cfg, ev) ==> WellFormed(cfg, r.ev)
    ensures ev.nbrs <= r.ev.nbrs
    ensures r.stoppedAt.None? ==>
              && r.ev.month == ev.month
              && (ev.year.Some? ==> r.ev.year == ev.year)
              && (ev.day.Some? ==> r.ev.day == ev.day)
    ensures r.stoppedAt.Some? ==> r.stoppedAt.value < |runs| && r.ev.year.Some? && r.ev.month.Some?
    decreases |runs|
  {
    if |runs| == 0 then
      Classified([], ev, None)
    else
      var x := runs[0];
      if !IsNumeral(x) then
        var rest := ClassifyRuns(cfg, runs[1..], ev);
        Classified([Text(x)] + rest.tokens, rest.ev, Shift(rest.stoppedAt))
      else
        match ShapeRule(cfg, x, ev.year.None?)
        case Some(sh) =>
          assert WellFormed(cfg, ev) ==> WellFormed(cfg, Commit(ev, sh));
          Classified(Texts(runs), Commit(ev, sh), Some(0))
        case None =>
          var t := TagRun(cfg, x, ev);
          assert ev.nbrs <= t.ev.nbrs;
          var rest := ClassifyRuns(cfg, runs[1..], t.ev);
          Classified([t.token] + rest.tokens, rest.ev, Shift(rest.stoppedAt))
  }

  /** The assignments of a shape rule: year and month are set, and day is set
      or cleared, whatever was found before; candidates found earlier stay. */
  function Commit(ev: Evidence, sh: Shape): (r: Evidence)
    ensures r.year == Some(sh.year) && r.month == Some(sh.month)
    ensures r.day == sh.day
    ensures r.nbrs == ev.nbrs
  {
    ev.(year := Some(sh.year), month := Some(sh.month), day := sh.day)
  }

  function Shift(i: Option<nat>): Option<nat> {
    match i
    case None => None
    case Some(k) => Some(k + 1)
  }

  /** heuristic_date.py:160-165 read on its own: the year a lone run offers. */
  function YearReading(cfg: Config, x: string): Option<nat> {
    if !IsNumeral(x) then None
    else if |x| == 4 && IsYear(cfg, Value(x)) then Some(Value(x))
    else if |x| == 2 && IsY2k(Value(x)) then Some(YearLow + Value(x))
    else None
  }

  /** The year offered by the first run that offers one. */
  function FirstYear(cfg: Config, runs: seq<string>): Option<nat>
    decreases |runs|
  {
    if |runs| == 0 then None
    else if YearReading(cfg, runs[0]).Some? then YearReading(cfg, runs[0])
    else FirstYear(cfg, runs[1..])
  }

  /** When no shape rule fires, the first year found is kept: the year is the one
      offered by the leftmost run that offers any. */
  lemma {:induction false} FirstYearWins(cfg: Config, runs: seq<string>, ev: Evidence)
    requires ClassifyRuns(cfg, runs, ev).stoppedAt.None?
    ensures ClassifyRuns(cfg, runs, ev).ev.year ==
            (if ev.year.Some? then ev.year else FirstYear(cfg, runs))
    decreases |runs|
  {
    if |runs| > 0 {
      var x := runs[0];
      if !IsNumeral(x) {
        FirstYearWins(cfg, runs[1..], ev);
      } else {
        assert ShapeRule(cfg, x, ev.year.None?).None?;
        var t := TagRun(cfg, x, ev);
        FirstYearWins(cfg, runs[1..], t.ev);
      }
    }
  }

  /** One step of the scan over a non-digit run. */
  lemma ScanText(cfg: Config, y: string, rest: seq<string>, ev: Evidence)
    requires !IsNumeral(y)
    ensures var r := ClassifyRuns(cfg, rest, ev);
            ClassifyRuns(cfg, [y] + rest, ev) == Classified([Text(y)] + r.tokens, r.ev, Shift(r.stoppedAt))
  {
    assert ([y] + rest)[0] == y && ([y] + rest)[1..] == rest;
  }

  /** One step of the scan over a digit run that no shape rule claims. */
  lemma ScanTag(cfg: Config, y: string, rest: seq<string>, ev: Evidence)
    requires IsNumeral(y) && ShapeRule(cfg, y, ev.year.None?).None?
    ensures var t := TagRun(cfg, y, ev);
            var r := ClassifyRuns(cfg, rest, t.ev);
            ClassifyRuns(cfg, [y] + rest, ev) == Classified([t.token] + r.tokens, r.ev, Shift(r.stoppedAt))
  {
    assert ([y] + rest)[0] == y && ([y] + rest)[1..] == rest;
  }

  /** The step at which a shape rule claims the run. */
  lemma ScanShape(cfg: Config, x: string, rest: seq<string>, ev: Evidence, sh: Shape)
    requires IsNumeral(x) && ShapeRule(cfg, x, ev.year.None?) == Some(sh)
    ensures ClassifyRuns(cfg, [x] + rest, ev) == Classified(Texts([x] + rest), Commit(ev, sh), Some(0))
  {
    assert ([x] + rest)[0] == x;
  }

  /**
   * The first digit run that matches a shape rule fixes year, month and day and
   * ends the scan: it and every later run are left as plain text, and the runs
   * after it have no influence on the result.
   */
  lemma {:induction false} ShapeStops(cfg: Config, pre: seq<string>, x: string, post: seq<string>, ev: Evidence, sh: Shape)
    requires IsNumeral(x)
    requires ClassifyRuns(cfg, pre, ev).stoppedAt.None?
    requires ShapeRule(cfg, x, ClassifyRuns(cfg, pre, ev).ev.year.None?) == Some(sh)
    ensures var before := ClassifyRuns(cfg, pre, ev);
            ClassifyRuns(cfg, pre + [x] + post, ev) ==
              Classified(before.tokens + Texts([x] + post), Commit(before.ev, sh), Some(|pre|))
    decreases |pre|
  {
    if |pre| == 0 {
      assert pre + [x] + post == [x] + post;
      ScanShape(cfg, x, post, ev, sh);
    } else {
      var y := pre[0];
      assert pre == [y] + pre[1..];
      assert pre + [x] + post == [y] + (pre[1..] + [x] + post);
      if !IsNumeral(y) {
        ScanText(cfg, y, pre[1..], ev);
        ShapeStops(cfg, pre[1..], x, post, ev, sh);
        StopsAfter(cfg, Text(y), y, pre[1..], x, post, ev, sh);
      } else {
        ScanTagOrShape(cfg, y, pre[1..], ev);
        var t := TagRun(cfg, y, ev);
        ShapeStops(cfg, pre[1..], x, post, t.ev, sh);
        StopsAfter(cfg, t.token, y, pre[1..], x, post, t.ev, sh);
      }
    }
  }

  /** The inductive step of `ShapeStops`: one more run in front of the stopping run. */
  lemma StopsAfter(cfg: Config, t: Token, y: string, pre: seq<string>, x: string, post: seq<string>, ev: Evidence, sh: Shape)
    requires var before := ClassifyRuns(cfg, pre, ev);
             ClassifyRuns(cfg, pre + [x] + post, ev) ==
               Classified(before.tokens + Texts([x] + post), Commit(before.ev, sh), Some(|pre|))
    ensures var before := ClassifyRuns(cfg, pre, ev);
            var tail := Texts([x] + post);
            Classified([t] + (before.tokens + tail), Commit(before.ev, sh), Shift(Some(|pre|))) ==
              Classified(([t] + before.tokens) + tail, Commit(before.ev, sh), Some(|[y] + pre|))
  {
  }

  /** A digit run at the head either stops the scan there or is tagged. */
  lemma ScanTagOrShape(cfg: Config, y: string, rest: seq<string>, ev: Evidence)
    requires IsNumeral(y) && ClassifyRuns(cfg, [y] + rest, ev).stoppedAt != Some(0)
    ensures ShapeRule(cfg, y, ev.year.None?).None?
    ensures var t := TagRun(cfg, y, ev);
            var r := ClassifyRuns(cfg, rest, t.ev);
            ClassifyRuns(cfg, [y] + rest, ev) == Classified([t.token] + r.tokens, r.ev, Shift(r.stoppedAt))
  {
    assert ([y] + rest)[0] == y && ([y] + rest)[1..] == rest;
  }
}

=== FILE: date_text.dfy ===
/**
 * The text `interpret` returns (heuristic_date.py:209-237): `%04d`,
 * `%04d-%02d` or `%04d-%02d-%02d`, and a reader for that text that recovers
 * the date, so the three formats are shown to be unambiguous.
 */
module DateText {
  import opened Wrappers
  import opened Decimal
  import opened Decision

  /** The `%`-format of each granularity. */
  function Format(d: Date): (t: string)
    ensures Count('-', t) == match d { case Year(_) => 0 case YearMonth(_, _) => 1 case FullDate(_, _, _) => 2 }
    ensures |t| >= 4
  {
    match d
    case Year(y) =>
      CountNonDigit('-', Padded(y, 4));
      Padded(y, 4)
    case YearMonth(y, m) =>
      CountNonDigit('-', Padded(m, 2));
      Dashed(Padded(y, 4), Padded(m, 2))
    case FullDate(y, m, dd) =>
      CountNonDigit('-', Padded(dd, 2));
      Dashed(Padded(y, 4), Dashed(Padded(m, 2), Padded(dd, 2)))
  }

  /** `a + "-" + b` where `a` is a numeral: one more dash than `b`. */
  function Dashed(a: string, b: string): (t: string)
    requires IsNumeral(a)
    ensures Count('-', t) == Count('-', b) + 1
    ensures |t| == |a| + 1 + |b|
  {
    CountNonDigit('-', a);
    CountConcat('-', a, "-");
    CountConcat('-', a + "-", b);
    a + "-" + b
  }

  /** The '-'-separated fields of a text, `t.split('-')`. */
  function Fields(t: string): (r: seq<string>)
    ensures |r| == Count('-', t) + 1
  {
    if |t| == 0 then [""]
    else
      var rest := Fields(t[1..]);
      assert t == [t[0]] + t[1..];
      CountConcat('-', [t[0]], t[1..]);
      if t[0] == '-' then [""] + rest else [[t[0]] + rest[0]] + rest[1..]
  }

  /** Reads a date back: one to three numeric fields. */
  function Parse(t: string): (r: Option<Date>)
    ensures r.Some? ==> |Fields(t)| == match r.value { case Year(_) => 1 case YearMonth(_, _) => 2 case FullDate(_, _, _) => 3 }
  {
    var f := Fields(t);
    if !(forall i :: 0 <= i < |f| ==> IsNumeral(f[i])) then None
    else if |f| == 1 then Some(Year(Value(f[0])))
    else if |f| == 2 then Some(YearMonth(Value(f[0]), Value(f[1])))
    else if |f| == 3 then Some(FullDate(Value(f[0]), Value(f[1]), Value(f[2])))
    else None
  }

  /** A dash-free text is a single field. */
  lemma {:induction false} FieldsNoDash(a: string)
    requires DigitsOnly(a)
    ensures Fields(a) == [a]
    decreases |a|
  {
    if |a| > 0 {
      FieldsNoDash(a[1..]);
      assert [a[0]] + a[1..] == a;
    }
  }

  /** Splitting `a + "-" + b` where `a` holds no dash. */
  lemma {:induction false} FieldsDashed(a: string, b: string)
    requires DigitsOnly(a)
    ensures Fields(a + "-" + b) == [a] + Fields(b)
    decreases |a|
  {
    var t := a + "-" + b;
    if |a| == 0 {
      assert t[0] == '-' && t[1..] == b;
    } else {
      FieldsDashed(a[1..], b);
      assert t[0] == a[0] && t[1..] == a[1..] + "-" + b;
      assert [a[0]] + a[1..] == a;
    }
  }

  /** Every date comes back from its text unchanged. */
  lemma ParseFormat(d: Date)
    ensures Parse(Format(d)) == Some(d)
  {
    match d
    case Year(y) => ParseYear(y);
    case YearMonth(y, m) => ParseYearMonth(y, m);
    case FullDate(y, m, dd) => ParseFullDate(y, m, dd);
  }

  lemma ParseYear(y: nat)
    ensures Parse(Format(Year(y))) == Some(Year(y))
  {
    FieldsNoDash(Padded(y, 4));
  }

  lemma ParseYearMonth(y: nat, m: nat)
    ensures Parse(Format(YearMonth(y, m))) == Some(YearMonth(y, m))
  {
    var f := Fields(Format(YearMonth(y, m)));
    FieldsNoDash(Padded(m, 2));
    FieldsDashed(Padded(y, 4), Padded(m, 2));
    assert f == [Padded(y, 4), Padded(m, 2)];
  }

  lemma ParseFullDate(y: nat, m: nat, d: nat)
    ensures Parse(Format(FullDate(y, m, d))) == Some(FullDate(y, m, d))
  {
    var ys, ms, ds := Padded(y, 4), Padded(m, 2), Padded(d, 2);
    var t := Format(FullDate(y, m, d));
    assert t == ys + "-" + (ms + "-" + ds);
    FieldsNoDash(ds);
    FieldsDashed(ms, ds);
    FieldsDashed(ys, ms + "-" + ds);
    assert Fields(t) == [ys, ms, ds];
  }

  /** The numbers a date shows, year first. */
  function Parts(d: Date): (p: seq<nat>)
    ensures 1 <= |p| <= 3 && p[0] == d.year
  {
    match d
    case Year(y) => [y]
    case YearMonth(y, m) => [y, m]
    case FullDate(y, m, dd) => [y, m, dd]
  }

  /** The field widths of the format: `%04d` for the year, `%02d` after it. */
  function Width(i: nat): nat {
    if i == 0 then 4 else 2
  }

  /**
   * The text of a date splits at '-' into one field per number shown, each
   * the zero-padded rendering of that number at its width: four characters
   * for a year below 10000, two for a month or day below 100.
   */
  lemma FormatFields(d: Date)
    ensures |Fields(Format(d))| == |Parts(d)|
    ensures forall i :: 0 <= i < |Parts(d)| ==> Fields(Format(d))[i] == Padded(Parts(d)[i], Width(i))
  {
    match d
    case Year(y) =>
      FieldsNoDash(Padded(y, 4));
    case YearMonth(y, m) =>
      FieldsNoDash(Padded(m, 2));
      FieldsDashed(Padded(y, 4), Padded(m, 2));
    case FullDate(y, m, dd) =>
      var ys, ms, ds := Padded(y, 4), Padded(m, 2), Padded(dd, 2);
      assert Format(d) == ys + "-" + (ms + "-" + ds);
      FieldsNoDash(ds);
      FieldsDashed(ms, ds);
      FieldsDashed(ys, ms + "-" + ds);
  }

  /** Distinct dates have distinct texts. */
  lemma FormatInjective(d: Date, e: Date)
    requires Format(d) == Format(e)
    ensures d == e
  {
    ParseFormat(d);
    ParseFormat(e);
  }
}

=== FILE: decimal.dfy ===
/**
 * Decimal digit strings: the ASCII reading of Python's `str.isdigit`, the value
 * `int(s)` of a digit string, and the zero-padded rendering of `"%0Nd" % n`.
 */
module Decimal {

  predicate IsDigit(c: char) {
    '0' <= c <= '9'
  }

  /** Every character is a decimal digit (the empty string qualifies). */
  predicate DigitsOnly(s: string) {
    forall i :: 0 <= i < |s| ==> IsDigit(s[i])
  }

  /** `s.isdigit()`: non-empty and made of decimal digits only. */
  predicate IsNumeral(s: string) {
    |s| > 0 && DigitsOnly(s)
  }

  function DigitValue(c: char): (d: nat)
    requires IsDigit(c)
    ensures d < 10
  {
    (c as int - '0' as int) as nat
  }

  function DigitChar(d: nat): (c: char)
    requires d < 10
    ensures IsDigit(c) && DigitValue(c) == d
  {
    ('0' as int + d) as char
  }

  function Pow10(n: nat): (p: nat)
    ensures p >= 1
  {
    if n == 0 then 1 else 10 * Pow10(n - 1)
  }

  /** `int(s)` for a string of decimal digits; leading zeros are allowed. */
  function Value(s: string): (v: nat)
    requires DigitsOnly(s)
    ensures v < Pow10(|s|)
    decreases |s|
  {
    if |s| == 0 then 0
    else
      var init := Value(s[..|s| - 1]);
      var d := DigitValue(s[|s| - 1]);
      assert init * 10 + d < Pow10(|s|) by {
        assert init + 1 <= Pow10(|s| - 1);
        assert (init + 1) * 10 <= Pow10(|s| - 1) * 10;
      }
      init * 10 + d
  }

  /** Appending one digit shifts the value by one decimal place. */
  lemma ValueSnoc(s: string, c: char)
    requires DigitsOnly(s) && IsDigit(c)
    ensures DigitsOnly(s + [c])
    ensures Value(s + [c]) == Value(s) * 10 + DigitValue(c)
  {
    assert (s + [c])[..|s|] == s;
  }

  lemma ShiftArith(va: int, p: int, vb: int, d: int)
    ensures (va * p + vb) * 10 + d == va * (p * 10) + (vb * 10 + d)
  {
    assert (va * p) * 10 == va * (p * 10);
  }

  /** Reading a concatenation: the left part is shifted past the right part. */
  lemma {:induction false} ValueConcat(a: string, b: string)
    requires DigitsOnly(a) && DigitsOnly(b)
    ensures DigitsOnly(a + b)
    ensures Value(a + b) == Value(a) * Pow10(|b|) + Value(b)
    decreases |b|
  {
    if |b| == 0 {
      assert a + b == a;
    } else {
      var b' := b[..|b| - 1];
      var c := b[|b| - 1];
      ValueConcat(a, b');
      assert b == b' + [c];
      assert a + b == (a + b') + [c];
      ValueSnoc(a + b', c);
      ValueSnoc(b', c);
      assert Pow10(|b|) == Pow10(|b'|) * 10;
      ShiftArith(Value(a), Pow10(|b'|), Value(b'), DigitValue(c));
    }
  }

  /** The shortest decimal rendering of `n` (`str(n)`). */
  function Digits(n: nat): (s: string)
    ensures IsNumeral(s)
    ensures Value(s) == n
    ensures n > 0 ==> s[0] != '0'
    decreases n
  {
    if n < 10 then [DigitChar(n)]
    else
      var init := Digits(n / 10);
      ValueSnoc(init, DigitChar(n % 10));
      init + [DigitChar(n % 10)]
  }

  /** A leading zero does not change the value of a digit string. */
  lemma {:induction false} ValueLeadingZero(s: string)
    requires DigitsOnly(s)
    ensures DigitsOnly(['0'] + s)
    ensures Value(['0'] + s) == Value(s)
    decreases |s|
  {
    if |s| > 0 {
      var init := s[..|s| - 1];
      ValueLeadingZero(init);
      assert (['0'] + s)[..|s|] == ['0'] + init;
      assert s == init + [s[|s| - 1]];
    }
  }

  /** Left-pads `s` with `'0'` up to `width` characters; longer strings are kept whole. */
  function ZeroPad(s: string, width: nat): (r: string)
    requires DigitsOnly(s)
    ensures DigitsOnly(r)
    ensures |r| == if |s| >= width then |s| else width
    ensures Value(r) == Value(s)
    decreases width - |s|
  {
    if |s| >= width then s
    else
      ValueLeadingZero(s);
      ZeroPad(['0'] + s, width)
  }

  /** `"%0<width>d" % n` for a non-negative `n`. */
  function Padded(n: nat, width: nat): (s: string)
    ensures IsNumeral(s)
    ensures |s| == if |Digits(n)| >= width then |Digits(n)| else width
    ensures Value(s) == n
  {
    ZeroPad(Digits(n), width)
  }

  /** Number of occurrences of `c` in `s` (`s.count(c)` for a one-character `c`). */
  function Count(c: char, s: string): (k: nat)
    ensures k <= |s|
  {
    if |s| == 0 then 0
    else Count(c, s[..|s| - 1]) + (if s[|s| - 1] == c then 1 else 0)
  }

  lemma {:induction false} CountConcat(c: char, a: string, b: string)
    ensures Count(c, a + b) == Count(c, a) + Count(c, b)
    decreases |b|
  {
    if |b| > 0 {
      var b' := b[..|b| - 1];
      CountConcat(c, a, b');
      assert (a + b)[..|a + b| - 1] == a + b';
      assert (a + b)[|a + b| - 1] == b[|b| - 1];
    } else {
      assert a + b == a;
    }
  }

  /** A character that is not a digit never occurs in a digit string. */
  lemma {:induction false} CountNonDigit(c: char, s: string)
    requires DigitsOnly(s) && !IsDigit(c)
    ensures Count(c, s) == 0
    decreases |s|
  {
    if |s| > 0 {
      CountNonDigit(c, s[..|s| - 1]);
    }
  }

  /** A character that does not occur is counted zero times. */
  lemma {:induction false} CountAbsent(c: char, s: string)
    requires forall k :: 0 <= k < |s| ==> s[k] != c
    ensures Count(c, s) == 0
    decreases |s|
  {
    if |s| > 0 {
      CountAbsent(c, s[..|s| - 1]);
    }
  }
}

=== FILE: decision.dfy ===
/**
 * The decision table of `interpret` (heuristic_date.py:199-237): year, month,
 * day and the candidate numbers become the most specific date the evidence
 * supports, or no result when no year was found.
 */
module Decision {
  import opened Wrappers
  import opened Decimal
  import opened Runs
  import opened Bounds
  import opened Tokens
  import opened Classifier

  /** The three output granularities: `YYYY`, `YYYY-MM`, `YYYY-MM-DD`. */
  datatype Date =
    | Year(year: nat)
    | YearMonth(year: nat, month: nat)
    | FullDate(year: nat, month: nat, day: nat)

  /** The month the output shows, if any. */
  function MonthOf(d: Date): Option<nat> {
    match d
    case Year(_) => None
    case YearMonth(_, m) => Some(m)
    case FullDate(_, m, _) => Some(m)
  }

  /** The day the output shows, if any. */
  function DayOf(d: Date): Option<nat> {
    if d.FullDate? then Some(d.day) else None
  }

  /** Month and day, where shown, are in 1..12 and 1..31. */
  predicate InRange(d: Date) {
    && (MonthOf(d).Some? ==> IsMonth(MonthOf(d).value))
    && (DayOf(d).Some? ==> IsDay(DayOf(d).value))
  }

  /** heuristic_date.py:226-227 and 230-231: the joined text holds exactly two
      '-' or exactly two '.'. */
  predicate TwoSeparators(x: string) {
    Count('-', x) == 2 || Count('.', x) == 2
  }

  /** `l[0][:2] == "…y"` */
  predicate FirstYearMarked(l: seq<string>) {
    |l| > 0 && YearMarked(l[0])
  }

  /** `l[-1][:2] == "…y"` */
  predicate LastYearMarked(l: seq<string>) {
    |l| > 0 && YearMarked(l[|l| - 1])
  }

  /** Month and day, where committed, passed `is_month`/`is_day`. */
  predicate EvidenceInRange(ev: Evidence) {
    && (ev.month.Some? ==> IsMonth(ev.month.value))
    && (ev.day.Some? ==> IsDay(ev.day.value))
  }

  /**
   * heuristic_date.py:199-237, rule by rule; `l` is the final token list.
   * No year means no result; otherwise the year is emitted with whatever month
   * and day the table can justify. With neither month nor day known, a full
   * date comes only from two candidates, the two-separator test, and a year tag
   * at the end (day-month-year) or at the start (year-month-day) of the list.
   * Unresolved ambiguity lowers the precision instead of guessing.
   */
  function Decide(ev: Evidence, l: seq<string>): (r: Option<Date>)
    ensures r.None? <==> ev.year.None?
    ensures r.Some? ==> r.value.year == ev.year.value
    // every month and day emitted passed is_month / is_day somewhere
    ensures r.Some? && EvidenceInRange(ev) ==> InRange(r.value)
    // precision never exceeds the evidence
    ensures r.Some? && MonthOf(r.value).Some? ==> ev.month.Some? || 1 <= |ev.nbrs| <= 2
    ensures r.Some? && DayOf(r.value).Some? ==> ev.day.Some? || 1 <= |ev.nbrs| <= 2
    // full evidence is emitted as found; a known month survives unless two candidates remain
    ensures ev.year.Some? && ev.month.Some? && ev.day.Some? ==>
              r == Some(FullDate(ev.year.value, ev.month.value, ev.day.value))
    ensures r.Some? && ev.month.Some? && |ev.nbrs| != 2 ==> MonthOf(r.value) == ev.month
    // an emitted month or day is the one found, or one of the candidate numbers
    ensures r.Some? && MonthOf(r.value).Some? ==> MonthOf(r.value) == ev.month || MonthOf(r.value).value in ev.nbrs
    ensures r.Some? && DayOf(r.value).Some? ==> DayOf(r.value) == ev.day || DayOf(r.value).value in ev.nbrs
    // the single-candidate rules: a lone candidate fills the one missing field
    ensures ev.year.Some? && ev.month.Some? && ev.day.None? && |ev.nbrs| == 0 ==>
              r == Some(YearMonth(ev.year.value, ev.month.value))
    ensures ev.year.Some? && ev.month.Some? && ev.day.None? && |ev.nbrs| == 1 && IsDay(ev.nbrs[0]) ==>
              r == Some(FullDate(ev.year.value, ev.month.value, ev.nbrs[0]))
    ensures ev.year.Some? && ev.month.None? && ev.day.Some? && |ev.nbrs| == 1 && IsMonth(ev.nbrs[0]) ==>
              r == Some(FullDate(ev.year.value, ev.nbrs[0], ev.day.value))
    ensures ev.year.Some? && ev.month.None? && ev.day.None? && |ev.nbrs| == 1 && IsMonth(ev.nbrs[0]) ==>
              r == Some(YearMonth(ev.year.value, ev.nbrs[0]))
    // a lone candidate that fits no missing field is dropped
    ensures ev.year.Some? && |ev.nbrs| == 1 && (ev.month.Some? || !IsMonth(ev.nbrs[0])) && (ev.day.Some? || !IsDay(ev.nbrs[0])) ==>
              r == Some(if ev.month.Some? && ev.day.Some? then FullDate(ev.year.value, ev.month.value, ev.day.value)
                        else if ev.month.Some? then YearMonth(ev.year.value, ev.month.value)
                        else Year(ev.year.value))
    // the two-candidate readings
    ensures r.Some? && ev.month.None? && ev.day.None? ==>
              (r.value.FullDate? <==>
                 && |ev.nbrs| == 2
                 && TwoSeparators(Join(l))
                 && ((LastYearMarked(l) && IsDay(ev.nbrs[0]) && IsMonth(ev.nbrs[1])) ||
                     (FirstYearMarked(l) && IsDay(ev.nbrs[1]) && IsMonth(ev.nbrs[0]))))
    ensures r.Some? && r.value.FullDate? && ev.month.None? && ev.day.None? ==>
              || (LastYearMarked(l) && r.value == FullDate(ev.year.value, ev.nbrs[1], ev.nbrs[0]))
              || (FirstYearMarked(l) && r.value == FullDate(ev.year.value, ev.nbrs[0], ev.nbrs[1]))
    // two candidates decide the date whenever month and day are not both known,
    // overriding a known month or day: day-month-year, else year-month-day, else
    // the known month alone, else the year alone
    ensures ev.year.Some? && !(ev.month.Some? && ev.day.Some?) && |ev.nbrs| == 2 ==>
              r == Some(
                if LastYearMarked(l) && IsDay(ev.nbrs[0]) && IsMonth(ev.nbrs[1]) && TwoSeparators(Join(l))
                then FullDate(ev.year.value, ev.nbrs[1], ev.nbrs[0])
                else if FirstYearMarked(l) && IsDay(ev.nbrs[1]) && IsMonth(ev.nbrs[0]) && TwoSeparators(Join(l))
                then FullDate(ev.year.value, ev.nbrs[0], ev.nbrs[1])
                else if ev.month.Some? then YearMonth(ev.year.value, ev.month.value)
                else Year(ev.year.value))
    // without the separator evidence two candidates degrade to year-month or year
    ensures r.Some? && !(ev.month.Some? && ev.day.Some?) && |ev.nbrs| == 2 && !TwoSeparators(Join(l)) ==>
              r.value == (if ev.month.Some? then YearMonth(ev.year.value, ev.month.value) else Year(ev.year.value))
  {
    if ev.year.None? then None
    else
      var y := ev.year.value;
      var nbrs := ev.nbrs;
      if ev.month.Some? && ev.day.Some? then
        Some(FullDate(y, ev.month.value, ev.day.value))
      else if ev.month.Some? && |nbrs| == 0 then
        Some(YearMonth(y, ev.month.value))
      else if ev.month.Some? && |nbrs| == 1 && IsDay(nbrs[0]) then
        Some(FullDate(y, ev.month.value, nbrs[0]))
      else if ev.day.Some? && |nbrs| == 1 && IsMonth(nbrs[0]) then
        Some(FullDate(y, nbrs[0], ev.day.value))
      else if ev.month.None? && ev.day.None? && |nbrs| == 1 && IsMonth(nbrs[0]) then
        Some(YearMonth(y, nbrs[0]))
      else if |nbrs| == 2 && LastYearMarked(l) && IsDay(nbrs[0]) && IsMonth(nbrs[1]) && TwoSeparators(Join(l)) then
        Some(FullDate(y, nbrs[1], nbrs[0]))
      else if |nbrs| == 2 && FirstYearMarked(l) && IsDay(nbrs[1]) && IsMonth(nbrs[0]) && TwoSeparators(Join(l)) then
        Some(FullDate(y, nbrs[0], nbrs[1]))
      else if ev.month.Some? then
        Some(YearMonth(y, ev.month.value))
      else
        Some(Year(y))
  }
}

=== FILE: examples_docstring.dfy ===
/**
 * Worked inputs of `interpret`. Most hold for every configuration whose
 * present year admits the years they use; the two-digit `yyMM` cases fix the
 * present year at 2024 (`AsWritten`, `Repaired`).
 */
module Examples {
  import opened Wrappers
  import opened Decimal
  import opened Runs
  import opened Bounds
  import opened Classifier
  import opened MonthNames
  import opened Decision
  import opened DateText
  import opened HeuristicDate
  import opened Promises

  const AsWritten: Config := Config(2024, false)
  const Repaired: Config := Config(2024, true)

  lemma Value2(s: string)
    requires |s| == 2 && DigitsOnly(s)
    ensures Value(s) == 10 * DigitValue(s[0]) + DigitValue(s[1])
  {
    assert s[..1][..0] == [];
  }

  lemma Value4(s: string)
    requires |s| == 4 && DigitsOnly(s)
    ensures Value(s) == 1000 * DigitValue(s[0]) + 100 * DigitValue(s[1]) + 10 * DigitValue(s[2]) + DigitValue(s[3])
  {
    Value2(s[..2]);
    assert s[..3][..2] == s[..2];
    assert Value(s[..3]) == 10 * Value(s[..2]) + DigitValue(s[2]);
  }

  lemma Values()
    ensures Value("11") == 11 && Value("12") == 12 && Value("31") == 31 && Value("19") == 19
    ensures Value("5") == 5 && Value("6") == 6
  {
    Value2("11");
    Value2("12");
    Value2("31");
    Value2("19");
  }

  lemma Value1983()
    ensures Value("1983") == 1983
  {
    Value4("1983");
  }

  lemma SingleRun(s: string)
    requires IsRun(s)
    ensures Tokenize(s) == [s]
  {
    JoinCons(s, []);
    RunSplitUnique(s, [s]);
  }

  lemma Shape8304(cfg: Config)
    ensures ShapeRule(cfg, "8304", true) == Some(Shape(YyMmYear(cfg, 83), 4, None))
  {
    var x := "8304";
    assert x[..2] == "83" && x[2..] == "04";
    Value2("83");
    Value2("04");
  }

  lemma Read8304(cfg: Config)
    ensures Read(cfg, "8304").date == Some(YearMonth(YyMmYear(cfg, 83), 4))
  {
    assert IsRun("8304");
    SingleRun("8304");
    Shape8304(cfg);
    var runs := ["8304"];
    assert ClassifyRuns(cfg, runs, NoEvidence).ev == Evidence(Some(YyMmYear(cfg, 83)), Some(4), None, []);
  }

  lemma Digits83()
    ensures Digits(83) == "83"
  {
    assert Digits(8) == "8";
  }

  lemma Padded83()
    ensures Padded(83, 4) == "0083"
  {
    Digits83();
    assert ['0'] + "83" == "083";
    assert ['0'] + "083" == "0083";
    assert ZeroPad("83", 4) == ZeroPad("083", 4) == ZeroPad("0083", 4);
  }

  lemma Padded4()
    ensures Padded(4, 2) == "04"
  {
    assert Digits(4) == "4";
  }

  lemma Padded1983()
    ensures Padded(1983, 4) == "1983"
  {
    assert Digits(19) == "19";
    assert Digits(198) == "198";
    assert Digits(1983) == "1983";
  }

  lemma Padded11()
    ensures Padded(11, 2) == "11"
  {
    assert Digits(11) == "11";
  }

  lemma Padded12()
    ensures Padded(12, 2) == "12"
  {
    assert Digits(12) == "12";
  }

  lemma Padded31()
    ensures Padded(31, 2) == "31"
  {
    assert Digits(31) == "31";
  }

  lemma FormatYearMonth(y: nat, m: nat, ys: string, ms: string)
    requires Padded(y, 4) == ys && Padded(m, 2) == ms
    ensures Format(YearMonth(y, m)) == ys + "-" + ms
  {
  }

  lemma FormatFullDate(y: nat, m: nat, d: nat, ys: string, ms: string, ds: string)
    requires Padded(y, 4) == ys && Padded(m, 2) == ms && Padded(d, 2) == ds
    ensures Format(FullDate(y, m, d)) == ys + "-" + ms + "-" + ds
  {
  }

  lemma Format8304()
    ensures Format(YearMonth(83, 4)) == "0083-04"
  {
    Padded83();
    Padded4();
    FormatYearMonth(83, 4, "0083", "04");
    assert "0083" + "-" + "04" == "0083-04";
  }

  lemma Format1983_04()
    ensures Format(YearMonth(1983, 4)) == "1983-04"
  {
    Padded1983();
    Padded4();
    FormatYearMonth(1983, 4, "1983", "04");
    assert "1983" + "-" + "04" == "1983-04";
  }

  lemma Format1983_12_31()
    ensures Format(FullDate(1983, 12, 31)) == "1983-12-31"
  {
    Padded1983();
    Padded12();
    Padded31();
    FormatFullDate(1983, 12, 31, "1983", "12", "31");
    assert "1983" + "-" + "12" + "-" + "31" == "1983-12-31";
  }

  lemma Format1983_11_12()
    ensures Format(FullDate(1983, 11, 12)) == "1983-11-12"
  {
    Padded1983();
    Padded11();
    Padded12();
    FormatFullDate(1983, 11, 12, "1983", "11", "12");
    assert "1983" + "-" + "11" + "-" + "12" == "1983-11-12";
  }

  /** The text of one call, given its date. */
  lemma Says(cfg: Config, s: string, d: Date, t: string)
    requires |s| > 0 && Read(cfg, s).date == Some(d) && Format(d) == t
    ensures Interpret(cfg, s) == Some(t)
  {
  }

  /** heuristic_date.py:154-155 as written: "8304" is the year 83. */
  lemma YyMmAsWritten()
    ensures Interpret(AsWritten, "8304") == Some("0083-04")
  {
    Read8304(AsWritten);
    assert YyMmYear(AsWritten, 83) == 83;
    Format8304();
    Says(AsWritten, "8304", YearMonth(83, 4), "0083-04");
  }

  /** With the yyMM year repaired, "8304" is April 1983. */
  lemma YyMmRepaired()
    ensures Interpret(Repaired, "8304") == Some("1983-04")
  {
    Read8304(Repaired);
    assert YyMmYear(Repaired, 83) == 1983;
    Format1983_04();
    Says(Repaired, "8304", YearMonth(1983, 4), "1983-04");
  }

  lemma Year1983(cfg: Config)
    requires cfg.yearHigh >= 1983
    ensures YearRun(cfg, "1983")
  {
    Value1983();
    Values();
    assert "1983"[..2] == "19";
  }

  lemma Small(m: string)
    requires m == "5" || m == "6" || m == "11" || m == "12"
    ensures SmallRun(m)
  {
    Values();
  }

  lemma Blank()
    ensures Plain(" ")
  {
  }

  /** heuristic_date.py:44-45: "1983 31 12" is accepted. */
  lemma YearDayMonth(cfg: Config)
    requires cfg.yearHigh >= 1983
    ensures Interpret(cfg, "1983 31 12") == Some("1983-12-31")
  {
    var s := "1983 31 12";
    Year1983(cfg);
    Small("12");
    Values();
    Value1983();
    Blank();
    OrderYDM(cfg, "1983", "31", "12", " ", s);
    assert Read(cfg, s).date == Some(FullDate(Value("1983"), Value("12"), Value("31")));
    assert Read(cfg, s).date == Some(FullDate(1983, 12, 31));
    Format1983_12_31();
    Says(cfg, s, FullDate(1983, 12, 31), "1983-12-31");
  }

  /** The same parts in the American order. */
  lemma MonthDayYear(cfg: Config)
    requires cfg.yearHigh >= 1983
    ensures Interpret(cfg, "12 31 1983") == Some("1983-12-31")
  {
    var s := "12 31 1983";
    Year1983(cfg);
    Small("12");
    Values();
    Value1983();
    Blank();
    OrderMDY(cfg, "1983", "31", "12", " ", s);
    assert Read(cfg, s).date == Some(FullDate(Value("1983"), Value("12"), Value("31")));
    assert Read(cfg, s).date == Some(FullDate(1983, 12, 31));
    Format1983_12_31();
    Says(cfg, s, FullDate(1983, 12, 31), "1983-12-31");
  }

  /** heuristic_date.py:47-48: "12.11.1983" is day-month-year. */
  lemma DottedDayMonthYear(cfg: Config)
    requires cfg.yearHigh >= 1983
    ensures Interpret(cfg, "12.11.1983") == Some("1983-11-12")
  {
    var s := "12.11.1983";
    Year1983(cfg);
    Small("12");
    Small("11");
    Values();
    Value1983();
    DayMonthYear(cfg, "12", "11", "1983", '.', s);
    assert Read(cfg, s).date == Some(FullDate(Value("1983"), Value("11"), Value("12")));
    assert Read(cfg, s).date == Some(FullDate(1983, 11, 12));
    Format1983_11_12();
    Says(cfg, s, FullDate(1983, 11, 12), "1983-11-12");
  }

  /** heuristic_date.py:47-48: "1983-11-12" is year-month-day. */
  lemma DashedYearMonthDay(cfg: Config)
    requires cfg.yearHigh >= 1983
    ensures Interpret(cfg, "1983-11-12") == Some("1983-11-12")
  {
    var s := "1983-11-12";
    Year1983(cfg);
    Small("12");
    Small("11");
    Values();
    Value1983();
    YearMonthDay(cfg, "1983", "11", "12", '-', s);
    assert Read(cfg, s).date == Some(FullDate(Value("1983"), Value("11"), Value("12")));
    assert Read(cfg, s).date == Some(FullDate(1983, 11, 12));
    Format1983_11_12();
    Says(cfg, s, FullDate(1983, 11, 12), "1983-11-12");
  }

  /** heuristic_date.py:50: "1983 5 6" leaves day and month open: only the year. */
  lemma AmbiguousGivesYear(cfg: Config)
    requires cfg.yearHigh >= 1983
    ensures Interpret(cfg, "1983 5 6") == Some("1983")
  {
    var s := "1983 5 6";
    Year1983(cfg);
    Small("5");
    Small("6");
    Value1983();
    Blank();
    AmbiguousYearFirst(cfg, "1983", "5", "6", " ", s);
    assert Read(cfg, s).date == Some(Year(Value("1983")));
    assert Read(cfg, s).date == Some(Year(1983));
    Padded1983();
    Says(cfg, s, Year(1983), "1983");
  }

  /** "aug" is the only pattern word of the catalogue that opens in "aug ". */
  lemma AugustMatches()
    ensures Search("aug ", Catalogue[7].words) == Some(Span(0, 3))
  {
    var words := Catalogue[7].words;
    assert words == ["august", "aug"];
    assert !OccursAt("aug ", 0, "august");
    assert OccursAt("aug ", 0, "aug");
    assert FirstWordAt("aug ", 0, words) == Some(1);
  }

  lemma OthersMiss(j: nat)
    requires j < |Catalogue| && j != 7
    ensures Search("aug ", Catalogue[j].words).None?
  {
    var ws := Catalogue[j].words;
    EntryLong(j);
    forall i, k: nat | 0 <= i < |ws|
      ensures !Opens("aug ", k, ws[i])
    {
      assert ws[i][0] in "jfmasond";
      assert ws[i][0] == 'a' ==> ws[i][1] == 'p';
    }
    NoOpeningNoMatch("aug ", ws);
  }

  lemma AugPick()
    ensures Best("aug ", Catalogue) == Some(Pick(Span(0, 3), 7))
  {
    forall j | 0 <= j < |Catalogue| && j != 7
      ensures Search("aug ", Catalogue[j].words).None?
    {
      OthersMiss(j);
    }
    AugustMatches();
    PickOnly("aug ", Catalogue, 7, Span(0, 3));
  }

  lemma Value1923()
    ensures Value("1923") == 1923
  {
    Value4("1923");
  }

  lemma Year1923(cfg: Config)
    requires cfg.yearHigh >= 1923
    ensures YearRun(cfg, "1923")
  {
    Value1923();
    Values();
    assert "1923"[..2] == "19";
  }

  lemma AugText()
    ensures Wording("aug ")
  {
  }

  lemma Format1923_08_12()
    ensures Format(FullDate(1923, 8, 12)) == "1923-08-12"
  {
    assert Digits(19) == "19";
    assert Digits(192) == "192";
    assert Digits(1923) == "1923";
    assert Digits(8) == "8";
    Padded12();
    FormatFullDate(1923, 8, 12, "1923", "08", "12");
    assert "1923" + "-" + "08" + "-" + "12" == "1923-08-12";
  }

  lemma AugInput(s: string)
    requires s == "aug 1923 12"
    ensures s == "aug " + "1923" + " " + "12"
  {
  }

  lemma AugustIsEight()
    ensures Catalogue[7].month == 8
  {
  }

  /** heuristic_date.py:45: "aug 1923 12" is accepted. */
  lemma NamedMonthFirst(cfg: Config)
    requires cfg.yearHigh >= 1923
    ensures Interpret(cfg, "aug 1923 12") == Some("1923-08-12")
  {
    var s := "aug 1923 12";
    AugInput(s);
    Year1923(cfg);
    Small("12");
    Blank();
    AugText();
    AugPick();
    NamedMonthYearDay(cfg, "aug ", Pick(Span(0, 3), 7), "1923", " ", "12", s);
    Value1923();
    Values();
    AugustIsEight();
    assert Read(cfg, s).date == Some(FullDate(1923, 8, 12));
    Format1923_08_12();
    Says(cfg, s, FullDate(1923, 8, 12), "1923-08-12");
  }

  lemma Value2023()
    ensures Value("2023") == 2023 && Value("1504") == 1504
  {
    Value4("2023");
    Value4("1504");
  }

  lemma Shape20230415(cfg: Config)
    requires cfg.yearHigh >= 2023
    ensures ShapeRule(cfg, "20230415", true) == Some(Shape(2023, 4, Some(15)))
  {
    var x := "20230415";
    assert x[..4] == "2023" && x[4..6] == "04" && x[6..] == "15";
    Value2023();
    Value2("04");
    Value2("15");
  }

  lemma Shape15042023(cfg: Config)
    requires cfg.yearHigh >= 2023
    ensures ShapeRule(cfg, "15042023", true) == Some(Shape(2023, 4, Some(15)))
  {
    var x := "15042023";
    assert x[..4] == "1504" && x[..2] == "15" && x[2..4] == "04" && x[4..] == "2023";
    Value2023();
    Value2("15");
    Value2("04");
  }

  lemma Shape990101(cfg: Config)
    requires cfg.yearHigh < 9901
    ensures ShapeRule(cfg, "990101", true) == Some(Shape(1999, 1, Some(1)))
  {
    var x := "990101";
    assert x[..4] == "9901" && x[4..] == "01" && x[..2] == "99" && x[2..4] == "01";
    Value4("9901");
    Value2("99");
    Value2("01");
  }

  /** A single digit run claimed by a shape rule fixes the date alone. */
  lemma ReadShape(cfg: Config, x: string, sh: Shape)
    requires IsNumeral(x) && ShapeRule(cfg, x, true) == Some(sh)
    ensures Read(cfg, x).ev == Evidence(Some(sh.year), Some(sh.month), sh.day, [])
  {
    assert IsRun(x);
    SingleRun(x);
    assert ClassifyRuns(cfg, [x], NoEvidence).ev == Evidence(Some(sh.year), Some(sh.month), sh.day, []);
  }

  lemma Format2023_04_15()
    ensures Format(FullDate(2023, 4, 15)) == "2023-04-15"
  {
    assert Digits(20) == "20";
    assert Digits(202) == "202";
    assert Digits(2023) == "2023";
    Padded4();
    assert Digits(15) == "15";
    FormatFullDate(2023, 4, 15, "2023", "04", "15");
    assert "2023" + "-" + "04" + "-" + "15" == "2023-04-15";
  }

  lemma Format1999_01_01()
    ensures Format(FullDate(1999, 1, 1)) == "1999-01-01"
  {
    assert Digits(19) == "19";
    assert Digits(199) == "199";
    assert Digits(1999) == "1999";
    assert Digits(1) == "1";
    FormatFullDate(1999, 1, 1, "1999", "01", "01");
    assert "1999" + "-" + "01" + "-" + "01" == "1999-01-01";
  }

  /** heuristic_date.py:124-128: "20230415" is yyyyMMdd. */
  lemma YearFirstBlock(cfg: Config, s: string)
    requires cfg.yearHigh >= 2023 && s == "20230415"
    ensures Interpret(cfg, s) == Some("2023-04-15")
  {
    Shape20230415(cfg);
    ReadShape(cfg, s, Shape(2023, 4, Some(15)));
    Format2023_04_15();
    Says(cfg, s, FullDate(2023, 4, 15), "2023-04-15");
  }

  /** heuristic_date.py:130-134: "15042023" is ddMMyyyy. */
  lemma DayFirstBlock(cfg: Config, s: string)
    requires cfg.yearHigh >= 2023 && s == "15042023"
    ensures Interpret(cfg, s) == Some("2023-04-15")
  {
    Shape15042023(cfg);
    ReadShape(cfg, s, Shape(2023, 4, Some(15)));
    Format2023_04_15();
    Says(cfg, s, FullDate(2023, 4, 15), "2023-04-15");
  }

  /** heuristic_date.py:142-146: "990101" is yyMMdd in the 1900s, as long as
      9901 is not yet a year that the yyyyMM rule at line 136 would take. */
  lemma TwoDigitYearBlock(cfg: Config, s: string)
    requires cfg.yearHigh < 9901 && s == "990101"
    ensures Interpret(cfg, s) == Some("1999-01-01")
  {
    Shape990101(cfg);
    ReadShape(cfg, s, Shape(1999, 1, Some(1)));
    Format1999_01_01();
    Says(cfg, s, FullDate(1999, 1, 1), "1999-01-01");
  }

  lemma Value1520()
    ensures Value("15") == 15 && Value("20") == 20
  {
    Value2("15");
    Value2("20");
  }

  /** heuristic_date.py:50 and 166-171: "1983 15 20" gives only the year. */
  lemma DayAndLeftoverGiveYear(cfg: Config, s: string)
    requires cfg.yearHigh >= 1983 && s == "1983 15 20"
    ensures Interpret(cfg, s) == Some("1983")
  {
    Year1983(cfg);
    Value1520();
    Value1983();
    Blank();
    YearDayLeftover(cfg, "1983", "15", "20", " ", s);
    assert Read(cfg, s).date == Some(Year(Value("1983")));
    assert Read(cfg, s).date == Some(Year(1983));
    Padded1983();
    Says(cfg, s, Year(1983), "1983");
  }
}

=== FILE: heuristic_date.dfy ===
/**
 * `interpret` (heuristic_date.py:100-237) end to end: split the input into
 * runs, classify the digit runs, look for a month name when no month is known
 * yet, and let the decision table pick the most specific date the evidence
 * supports. The current year (`time.localtime()`) is the `yearHigh` of the
 * configuration.
 */
module HeuristicDate {
  import opened Wrappers
  import opened Decimal
  import opened Runs
  import opened Bounds
  import opened Tokens
  import opened Classifier
  import opened MonthNames
  import opened Decision
  import opened DateText

  /** Every intermediate state of one call: the runs, the classification, the
      month-name step, the evidence the decision table sees, and its verdict. */
  datatype Reading = Reading(
    runs: seq<string>,
    classified: Classified,
    named: Named,
    ev: Evidence,
    date: Option<Date>)

  /** heuristic_date.py:105-237 up to the formatting: the scan, then the
      month-name step when no month is known yet, then the decision table. */
  function Read(cfg: Config, s: string): (r: Reading)
    requires |s| > 0
    ensures IsRunSplit(s, r.runs)
    ensures WellFormed(cfg, r.ev)
    ensures r.ev.year == r.classified.ev.year && r.ev.day == r.classified.ev.day && r.ev.nbrs == r.classified.ev.nbrs
    ensures r.classified.ev.month.Some? ==> r.ev.month == r.classified.ev.month && r.named.tokens == r.classified.tokens
    ensures r.named.found.Some? ==> r.classified.ev.month.None? && r.ev.month == Some(r.named.found.value.month)
    ensures r.classified == ClassifyRuns(cfg, r.runs, NoEvidence)
    ensures r.classified.ev.month.None? ==> r.named == MatchMonthName(Catalogue, r.classified.tokens)
    ensures r.classified.ev.month.None? && r.named.found.None? ==> r.ev.month.None?
    ensures r.date == Decide(r.ev, Layout(r.named.tokens))
    ensures r.date.None? <==> r.ev.year.None?
  {
    var runs := Tokenize(s);
    var c := ClassifyRuns(cfg, runs, NoEvidence);
    // the month-name loop runs only while `month is None` (line 175)
    var named := if c.ev.month.Some? then Named(c.tokens, None) else MatchMonthName(Catalogue, c.tokens);
    CatalogueMonthsInRange();
    // a month name found sets `month` (line 194)
    assert named.found.Some? ==> IsMonth(named.found.value.month);
    var ev := c.ev.(month := if named.found.Some? then Some(named.found.value.month) else c.ev.month);
    assert WellFormed(cfg, ev);
    Reading(runs, c, named, ev, Decide(ev, Layout(named.tokens)))
  }

  /**
   * `interpret(instr)`: "YYYY", "YYYY-MM" or "YYYY-MM-DD", or no result. Every
   * result reads back as a date whose year passed the year bounds and whose
   * month and day are in range, and is exactly that date's zero-padded text.
   */
  function Interpret(cfg: Config, s: string): (r: Option<string>)
    requires |s| > 0
    ensures r.Some? ==>
              && Parse(r.value).Some?
              && YearOk(cfg, Parse(r.value).value.year)
              && InRange(Parse(r.value).value)
    ensures r.Some? ==> r.value == Format(Parse(r.value).value)
    ensures r.Some? <==> Read(cfg, s).ev.year.Some?
    // the text is that of the date the decision table settled on
    ensures r.Some? ==> Parse(r.value) == Read(cfg, s).date
  {
    match Read(cfg, s).date
    case None => None
    case Some(d) =>
      ParseFormat(d);
      Some(Format(d))
  }

  /**
   * No result exactly when no digit shape fired and no run reads as a year
   * on its own (four digits in the year range, or two in the two-digit range).
   */
  lemma NoResultIffNoYear(cfg: Config, s: string)
    requires |s| > 0
    ensures Interpret(cfg, s).None? <==>
              ClassifyRuns(cfg, Tokenize(s), NoEvidence).stoppedAt.None? && FirstYear(cfg, Tokenize(s)).None?
  {
    var runs := Tokenize(s);
    if ClassifyRuns(cfg, runs, NoEvidence).stoppedAt.None? {
      FirstYearWins(cfg, runs, NoEvidence);
    }
  }

  /** When no digit shape fires, the year is the one read from the leftmost
      run that offers a year. */
  lemma LeftmostYearWins(cfg: Config, s: string)
    requires |s| > 0
    requires ClassifyRuns(cfg, Tokenize(s), NoEvidence).stoppedAt.None?
    ensures Read(cfg, s).date.Some? ==> Some(Read(cfg, s).date.value.year) == FirstYear(cfg, Tokenize(s))
  {
    FirstYearWins(cfg, Tokenize(s), NoEvidence);
  }

  /**
   * The separator test of the decision table (lines 226-231) joins the final
   * token list; its '-' and '.' counts are those of the input, because tags
   * keep the digits they replace and month names hold no separators.
   */
  lemma SeparatorsKept(cfg: Config, s: string, c: char)
    requires |s| > 0 && IsSeparator(c)
    ensures Count(c, Joined(Read(cfg, s).named.tokens)) == Count(c, s)
  {
    var r := Read(cfg, s);
    LayoutKeepsSeparators(r.classified.tokens, r.runs, c);
    if r.classified.ev.month.None? {
      CatalogueLowercaseWords();
      MatchKeepsSeparators(Catalogue, r.classified.tokens, c);
    }
  }

  /**
   * The docstring's promise for two candidate numbers: without a month or day
   * from elsewhere, a full date needs exactly two '-' or exactly two '.' in the
   * input.
   */
  lemma FullDateNeedsSeparators(cfg: Config, s: string)
    requires |s| > 0
    requires Read(cfg, s).ev.month.None? && Read(cfg, s).ev.day.None?
    ensures Read(cfg, s).date.Some? && Read(cfg, s).date.value.FullDate? ==> TwoSeparators(s)
  {
    SeparatorsKept(cfg, s, '-');
    SeparatorsKept(cfg, s, '.');
  }

  /**
   * With the two-digit-year shape repaired and a present year of at least 1999,
   * every year returned lies in 1900..present, as the module documentation
   * promises.
   */
  lemma CorrectedYearsInRange(cfg: Config, s: string)
    requires |s| > 0 && cfg.fixYyMm && cfg.yearHigh >= YearLow + Y2kHigh
    ensures Interpret(cfg, s).Some? ==>
              YearLow <= Parse(Interpret(cfg, s).value).value.year <= cfg.yearHigh
  {
  }
}

=== FILE: month_names.dfy ===
/**
 * The month-name matcher of `interpret` (heuristic_date.py:69-82, 173-197):
 * the first token in which any catalogue pattern matches is split into the
 * text before the match, a month tag, and the text after it.
 */
module MonthNames {
  import opened Wrappers
  import opened Decimal
  import opened Tokens

  /** One compiled pattern `w1|w2|...` of the catalogue and the month it names. */
  datatype Entry = Entry(words: seq<string>, month: nat)

  /** `MONTHS`, in order, with each pattern's alternatives in order. */
  const Catalogue: seq<Entry> := [
    Entry(["january", "januar", "jan"], 1),
    Entry(["february", "februar", "feb"], 2),
    Entry(["march", "marts", "mar"], 3),
    Entry(["april", "apr"], 4),
    Entry(["maj", "may"], 5),
    Entry(["june", "juni", "jun"], 6),
    Entry(["july", "juli", "jul"], 7),
    Entry(["august", "aug"], 8),
    Entry(["september", "sept", "sep"], 9),
    Entry(["october", "oct", "oktober", "okt"], 10),
    Entry(["november", "nov"], 11),
    Entry(["december", "dec"], 12)
  ]

  /** ASCII lower-casing, the case folding `re.IGNORECASE` applies to these patterns. */
  function Lower(c: char): char {
    if 'A' <= c <= 'Z' then (c as int + 32) as char else c
  }

  /** `w` occurs at offset `i` of `text`, ignoring case. */
  predicate OccursAt(text: string, i: nat, w: string) {
    i + |w| <= |text| && forall k :: 0 <= k < |w| ==> Lower(text[i + k]) == Lower(w[k])
  }

  /** A regular-expression match `(start, end)`. */
  datatype Span = Span(start: nat, end: nat)

  /** Python's tuple order on `match.span()`. */
  predicate Before(a: Span, b: Span) {
    a.start < b.start || (a.start == b.start && a.end < b.end)
  }

  /** At one offset, an alternation tries its words in order: the first that fits wins. */
  function FirstWordAt(text: string, i: nat, words: seq<string>): (r: Option<nat>)
    ensures r.Some? ==> r.value < |words| && OccursAt(text, i, words[r.value])
    ensures r.Some? ==> forall k :: 0 <= k < r.value ==> !OccursAt(text, i, words[k])
    ensures r.None? ==> forall k :: 0 <= k < |words| ==> !OccursAt(text, i, words[k])
    decreases |words|
  {
    if |words| == 0 then None
    else if OccursAt(text, i, words[0]) then Some(0)
    else
      match FirstWordAt(text, i, words[1..])
      case None => None
      case Some(k) => Some(k + 1)
  }

  /** `regex.search(text)` from offset `from` on: the leftmost offset where some
      word fits, and there the first word listed. */
  function SearchFrom(text: string, words: seq<string>, from: nat): (r: Option<Span>)
    requires from <= |text| + 1
    ensures r.Some? ==>
              && from <= r.value.start <= r.value.end <= |text|
              && FirstWordAt(text, r.value.start, words).Some?
              && r.value.end == r.value.start + |words[FirstWordAt(text, r.value.start, words).value]|
    ensures r.Some? ==> forall p :: from <= p < r.value.start ==> FirstWordAt(text, p, words).None?
    ensures r.None? ==> forall p :: from <= p <= |text| ==> FirstWordAt(text, p, words).None?
    decreases |text| + 1 - from
  {
    if from > |text| then None
    else
      match FirstWordAt(text, from, words)
      case Some(k) => Some(Span(from, from + |words[k]|))
      case None => SearchFrom(text, words, from + 1)
  }

  function Search(text: string, words: seq<string>): Option<Span>
  {
    SearchFrom(text, words, 0)
  }

  /** The winning catalogue entry and its match. */
  datatype Pick = Pick(span: Span, entry: nat)

  /**
   * heuristic_date.py:176-184 over the first `|cat|` entries: an entry replaces
   * the current pick only when its span is strictly smaller, so the smallest
   * span wins and, among equal spans, the earliest entry.
   */
  function Best(text: string, cat: seq<Entry>): (r: Option<Pick>)
    ensures r.Some? ==> r.value.entry < |cat| && Search(text, cat[r.value.entry].words) == Some(r.value.span)
    decreases |cat|
  {
    if |cat| == 0 then None
    else
      var prev := Best(text, cat[..|cat| - 1]);
      var m := Search(text, cat[|cat| - 1].words);
      if m.Some? && (prev.None? || Before(m.value, prev.value.span)) then
        Some(Pick(m.value, |cat| - 1))
      else
        prev
  }

  /** No pick means that no entry matches at all. */
  lemma {:induction false} BestNoneIffNoMatch(text: string, cat: seq<Entry>)
    ensures Best(text, cat).None? <==> forall j :: 0 <= j < |cat| ==> Search(text, cat[j].words).None?
    decreases |cat|
  {
    if |cat| > 0 {
      var n := |cat| - 1;
      BestNoneIffNoMatch(text, cat[..n]);
      assert forall j :: 0 <= j < n ==> cat[..n][j] == cat[j];
    }
  }

  /** The pick's span is least among all entries that match, and an entry
      listed before the pick matches strictly later. */
  lemma {:induction false} BestIsLeast(text: string, cat: seq<Entry>)
    ensures Best(text, cat).Some? ==> forall j :: 0 <= j < |cat| ==> Beaten(text, cat[j], j, Best(text, cat).value)
    decreases |cat|
  {
    if |cat| > 0 {
      var n := |cat| - 1;
      BestIsLeast(text, cat[..n]);
      var prev := Best(text, cat[..n]);
      var m := Search(text, cat[n].words);
      if m.Some? && (prev.None? || Before(m.value, prev.value.span)) {
        var r := Pick(m.value, n);
        forall j | 0 <= j < n
          ensures Beaten(text, cat[j], j, r)
        {
          if prev.Some? {
            assert cat[..n][j] == cat[j];
            assert Beaten(text, cat[..n][j], j, prev.value);
          } else {
            BestNoneIffNoMatch(text, cat[..n]);
            assert cat[..n][j] == cat[j];
          }
        }
      } else if prev.Some? {
        forall j | 0 <= j < n
          ensures Beaten(text, cat[j], j, prev.value)
        {
          assert cat[..n][j] == cat[j];
          assert Beaten(text, cat[..n][j], j, prev.value);
        }
      }
    }
  }

  /** Entry `e`, listed at position `j`, lost to pick `p`: its match is not
      before the pick's, and if it is listed earlier its match is strictly after. */
  predicate Beaten(text: string, e: Entry, j: nat, p: Pick) {
    var s := Search(text, e.words);
    s.Some? ==> !Before(s.value, p.span) && (j < p.entry ==> Before(p.span, s.value))
  }

  /** When exactly one entry matches, it is the pick, whatever its place in the list. */
  lemma {:induction false} PickOnly(text: string, cat: seq<Entry>, n: nat, sp: Span)
    requires n < |cat| && Search(text, cat[n].words) == Some(sp)
    requires forall j :: 0 <= j < |cat| && j != n ==> Search(text, cat[j].words).None?
    ensures Best(text, cat) == Some(Pick(sp, n))
    decreases |cat|
  {
    var last := |cat| - 1;
    var init := cat[..last];
    assert forall j :: 0 <= j < last ==> init[j] == cat[j];
    if n == last {
      BestNoneIffNoMatch(text, init);
    } else {
      PickOnly(text, init, n, sp);
    }
  }

  /** The first two letters of `w` stand, ignoring case, at offsets `k` and `k + 1`. */
  predicate Opens(text: string, k: nat, w: string) {
    k + 1 < |text| && |w| >= 2 && Lower(text[k]) == Lower(w[0]) && Lower(text[k + 1]) == Lower(w[1])
  }

  /** A pattern of words of two or more letters matches only where one of its
      words opens. */
  lemma NoOpeningNoMatch(text: string, words: seq<string>)
    requires forall i :: 0 <= i < |words| ==> |words[i]| >= 2
    requires forall i, k :: 0 <= i < |words| && 0 <= k ==> !Opens(text, k, words[i])
    ensures Search(text, words).None?
  {
    var r := Search(text, words);
    if r.Some? {
      var k := FirstWordAt(text, r.value.start, words).value;
      assert OccursAt(text, r.value.start, words[k]);
      assert Opens(text, r.value.start, words[k]);
    }
  }

  /** The token that held the month name, the match, and the month it names. */
  datatype Found = Found(index: nat, pick: Pick, month: nat)

  datatype Named = Named(tokens: seq<Token>, found: Option<Found>)

  /** heuristic_date.py:188-197: the text before the match (if any), the month tag,
      and the text after the match (if any) take the place of the token. */
  function Splice(text: string, span: Span, month: nat): (r: seq<Token>)
    requires span.start <= span.end <= |text|
    ensures forall i :: 0 <= i < |r| && r[i].Text? ==> |r[i].text| > 0
    ensures forall i :: 0 <= i < |r| ==> r[i].Text? || r[i] == MonthTag(month)
    ensures |r| == (if span.start > 0 then 1 else 0) + 1 + (if span.end < |text| then 1 else 0)
    ensures r[if span.start > 0 then 1 else 0] == MonthTag(month)
    ensures span.start > 0 ==> r[0] == Text(text[..span.start])
    ensures span.end < |text| ==> r[|r| - 1] == Text(text[span.end..])
  {
    (if span.start > 0 then [Text(text[..span.start])] else [])
    + [MonthTag(month)]
    + (if span.end < |text| then [Text(text[span.end..])] else [])
  }

  /** The splice keeps every character of the token except the matched word,
      which the month tag replaces. */
  lemma SpliceKeepsText(text: string, span: Span, month: nat)
    requires span.start <= span.end <= |text|
    ensures Joined(Splice(text, span, month)) == text[..span.start] + Render(MonthTag(month)) + text[span.end..]
  {
    var before := if span.start > 0 then [Text(text[..span.start])] else [];
    var after := if span.end < |text| then [Text(text[span.end..])] else [];
    assert Splice(text, span, month) == before + [MonthTag(month)] + after;
    JoinedAppend(before + [MonthTag(month)], after);
    JoinedAppend(before, [MonthTag(month)]);
    JoinedOne(MonthTag(month));
    if span.start > 0 {
      JoinedOne(Text(text[..span.start]));
    }
    if span.end < |text| {
      JoinedOne(Text(text[span.end..]));
    }
  }

  /** Every entry names a month in 1..12. */
  predicate MonthsInRange(cat: seq<Entry>) {
    forall j :: 0 <= j < |cat| ==> 1 <= cat[j].month <= 12
  }

  lemma CatalogueMonthsInRange()
    ensures MonthsInRange(Catalogue)
  {
  }

  /**
   * heuristic_date.py:174-187: tokens are tried left to right from `n` on; the
   * first one in which some entry of `cat` matches is the one found, so every
   * token before it has no match, and when none is found no token has one.
   */
  function FindMonthToken(cat: seq<Entry>, ts: seq<Token>, n: nat): (r: Option<Found>)
    requires n <= |ts|
    ensures r.Some? ==>
              && n <= r.value.index < |ts|
              && Best(Render(ts[r.value.index]), cat) == Some(r.value.pick)
              && r.value.month == cat[r.value.pick.entry].month
    decreases |ts| - n
  {
    if n == |ts| then None
    else
      match Best(Render(ts[n]), cat)
      case Some(p) => Some(Found(n, p, cat[p.entry].month))
      case None => FindMonthToken(cat, ts, n + 1)
  }

  /** The token found is the first, from `n` on, in which the pattern matches;
      when none is found, it matches in no token from `n` on. */
  lemma {:induction false} FindMonthTokenFirst(cat: seq<Entry>, ts: seq<Token>, n: nat)
    requires n <= |ts|
    ensures var r := FindMonthToken(cat, ts, n);
            && (r.Some? ==> forall i :: n <= i < r.value.index ==> Best(Render(ts[i]), cat).None?)
            && (r.None? ==> forall i :: n <= i < |ts| ==> Best(Render(ts[i]), cat).None?)
    decreases |ts| - n
  {
    if n < |ts| && Best(Render(ts[n]), cat).None? {
      var r := FindMonthToken(cat, ts, n + 1);
      assert FindMonthToken(cat, ts, n) == r;
      FindMonthTokenFirst(cat, ts, n + 1);
      var last := if r.Some? then r.value.index else |ts|;
      forall i | n <= i < last
        ensures Best(Render(ts[i]), cat).None?
      {
        if i == n {
        }
      }
    }
  }

  /**
   * heuristic_date.py:188-197: the token found is replaced by its splice and the
   * scan ends, since the month is now set. The engine passes `Catalogue`.
   */
  function MatchMonthName(cat: seq<Entry>, ts: seq<Token>): (r: Named)
    ensures r.found.None? ==> r.tokens == ts
    ensures r.found.Some? && MonthsInRange(cat) ==> 1 <= r.found.value.month <= 12
  {
    match FindMonthToken(cat, ts, 0)
    case None => Named(ts, None)
    case Some(f) =>
      var text := Render(ts[f.index]);
      Named(ts[..f.index] + Splice(text, f.pick.span, f.month) + ts[f.index + 1..], Some(f))
  }

  /**
   * The joined text after matching is the joined text before it with the
   * matched word of the found token replaced by the month tag; every other
   * character stays where it was.
   */
  lemma MatchReplacesWord(cat: seq<Entry>, ts: seq<Token>, f: Found)
    requires MatchMonthName(cat, ts).found == Some(f)
    ensures f.index < |ts| && f.pick.span.start <= f.pick.span.end <= |Render(ts[f.index])|
    ensures Joined(MatchMonthName(cat, ts).tokens)
              == Joined(ts[..f.index])
                 + (Render(ts[f.index])[..f.pick.span.start] + Render(MonthTag(f.month))
                    + Render(ts[f.index])[f.pick.span.end..])
                 + Joined(ts[f.index + 1..])
  {
    var text := Render(ts[f.index]);
    var words := cat[f.pick.entry].words;
    assert SearchFrom(text, words, 0) == Some(f.pick.span);
    var spliced := Splice(text, f.pick.span, f.month);
    assert MatchMonthName(cat, ts).tokens == ts[..f.index] + spliced + ts[f.index + 1..];
    JoinedThree(ts[..f.index], spliced, ts[f.index + 1..]);
    SpliceKeepsText(text, f.pick.span, f.month);
  }

  lemma JoinedThree(pre: seq<Token>, mid: seq<Token>, post: seq<Token>)
    ensures Joined(pre + mid + post) == Joined(pre) + Joined(mid) + Joined(post)
  {
    JoinedAppend(pre + mid, post);
    JoinedAppend(pre, mid);
  }

  /** A pattern word spelled in lower-case ASCII letters. */
  predicate IsLowerWord(w: string) {
    forall k :: 0 <= k < |w| ==> 'a' <= w[k] <= 'z'
  }

  /** Every word of every entry is lower-case ASCII letters. */
  predicate LowercaseWords(cat: seq<Entry>) {
    forall j, i :: 0 <= j < |cat| && 0 <= i < |cat[j].words| ==> IsLowerWord(cat[j].words[i])
  }

  lemma CatalogueLowercaseWords()
    ensures LowercaseWords(Catalogue)
  {
    forall j | 0 <= j < |Catalogue|
      ensures forall i :: 0 <= i < |Catalogue[j].words| ==> IsLowerWord(Catalogue[j].words[i])
    {
      EntryLowercase(j);
    }
  }

  lemma EntryLowercase(j: nat)
    requires j < |Catalogue|
    ensures forall i :: 0 <= i < |Catalogue[j].words| ==> IsLowerWord(Catalogue[j].words[i])
  {
    var ws := Catalogue[j].words;
    if j < 4 {
      assert ws in [["january", "januar", "jan"], ["february", "februar", "feb"], ["march", "marts", "mar"], ["april", "apr"]];
    } else if j < 8 {
      assert ws in [["maj", "may"], ["june", "juni", "jun"], ["july", "juli", "jul"], ["august", "aug"]];
    } else {
      assert ws in [["september", "sept", "sep"], ["october", "oct", "oktober", "okt"], ["november", "nov"], ["december", "dec"]];
    }
  }

  /** A month tag holds no '-' or '.'. */
  lemma MonthTagNoSeparator(m: nat, c: char)
    requires IsSeparator(c)
    ensures Count(c, Render(MonthTag(m))) == 0
  {
    CountNonDigit(c, Digits(m));
    CountAbsent(c, [Mark, 'm']);
    CountConcat(c, [Mark, 'm'], Digits(m));
  }

  /** A text matched by a lower-case word holds no '-' or '.'. */
  lemma MatchedNoSeparator(text: string, i: nat, w: string, c: char)
    requires OccursAt(text, i, w) && IsLowerWord(w) && IsSeparator(c)
    ensures Count(c, text[i..i + |w|]) == 0
  {
    var mid := text[i..i + |w|];
    forall q | 0 <= q < |mid|
      ensures mid[q] != c
    {
      assert mid[q] == text[i + q];
      assert Lower(text[i + q]) == Lower(w[q]);
    }
    CountAbsent(c, mid);
  }

  /** When the matched word holds no separator, the splice keeps the token's
      separator count. */
  lemma SpliceKeepsSeparators(text: string, span: Span, month: nat, c: char)
    requires span.start <= span.end <= |text| && IsSeparator(c)
    requires Count(c, text[span.start..span.end]) == 0
    ensures Count(c, Joined(Splice(text, span, month))) == Count(c, text)
  {
    var pre := text[..span.start];
    var mid := text[span.start..span.end];
    var post := text[span.end..];
    assert text == pre + mid + post;
    CountConcat(c, pre + mid, post);
    CountConcat(c, pre, mid);
    SpliceKeepsText(text, span, month);
    MonthTagNoSeparator(month, c);
    CountConcat(c, pre + Render(MonthTag(month)), post);
    CountConcat(c, pre, Render(MonthTag(month)));
  }

  /**
   * Month matching never adds or removes a '-' or '.': the match itself is
   * letters, and the text around it is kept, so the separator test of the
   * decision table sees the same counts before and after.
   */
  lemma MatchKeepsSeparators(cat: seq<Entry>, ts: seq<Token>, c: char)
    requires LowercaseWords(cat) && IsSeparator(c)
    ensures Count(c, Joined(MatchMonthName(cat, ts).tokens)) == Count(c, Joined(ts))
  {
    match FindMonthToken(cat, ts, 0)
    case None =>
    case Some(f) =>
      var i := f.index;
      var text := Render(ts[i]);
      var sp := f.pick.span;
      var words := cat[f.pick.entry].words;
      assert SearchFrom(text, words, 0) == Some(sp);
      var k := FirstWordAt(text, sp.start, words).value;
      assert IsLowerWord(words[k]);
      MatchedNoSeparator(text, sp.start, words[k], c);
      var spliced := Splice(text, sp, f.month);
      assert MatchMonthName(cat, ts).tokens == ts[..i] + spliced + ts[i + 1..];
      SpliceKeepsSeparators(text, sp, f.month, c);
      SplicedCount(ts, i, spliced, c);
  }

  /** Replacing one token by tokens with the same separator count keeps the count. */
  lemma SplicedCount(ts: seq<Token>, i: nat, spliced: seq<Token>, c: char)
    requires i < |ts|
    requires Count(c, Joined(spliced)) == Count(c, Render(ts[i]))
    ensures Count(c, Joined(ts[..i] + spliced + ts[i + 1..])) == Count(c, Joined(ts))
  {
    var pre := ts[..i];
    var post := ts[i + 1..];
    assert ts == pre + [ts[i]] + post;
    JoinedOne(ts[i]);
    CountJoinedThree(pre, [ts[i]], post, c);
    CountJoinedThree(pre, spliced, post, c);
  }

  /** Counting over a joined list adds up over its parts. */
  lemma CountJoinedThree(pre: seq<Token>, mid: seq<Token>, post: seq<Token>, c: char)
    ensures Count(c, Joined(pre + mid + post)) == Count(c, Joined(pre)) + Count(c, Joined(mid)) + Count(c, Joined(post))
  {
    JoinedAppend(pre + mid, post);
    JoinedAppend(pre, mid);
    CountConcat(c, Joined(pre) + Joined(mid), Joined(post));
    CountConcat(c, Joined(pre), Joined(mid));
  }

  predicate IsLetter(c: char) {
    ('a' <= c <= 'z') || ('A' <= c <= 'Z')
  }

  /** No two neighbouring characters are both ASCII letters. */
  predicate NoLetterPair(text: string) {
    forall i :: 0 <= i < |text| - 1 ==> !(IsLetter(text[i]) && IsLetter(text[i + 1]))
  }

  /** Every word is at least two characters long. */
  predicate LongWords(cat: seq<Entry>) {
    forall j, i :: 0 <= j < |cat| && 0 <= i < |cat[j].words| ==> |cat[j].words[i]| >= 2
  }

  lemma CatalogueLongWords()
    ensures LongWords(Catalogue)
  {
    forall j | 0 <= j < |Catalogue|
      ensures forall i :: 0 <= i < |Catalogue[j].words| ==> |Catalogue[j].words[i]| >= 2
    {
      EntryLong(j);
    }
  }

  lemma EntryLong(j: nat)
    requires j < |Catalogue|
    ensures forall i :: 0 <= i < |Catalogue[j].words| ==> |Catalogue[j].words[i]| >= 2
  {
    var ws := Catalogue[j].words;
    if j < 4 {
      assert ws in [["january", "januar", "jan"], ["february", "februar", "feb"], ["march", "marts", "mar"], ["april", "apr"]];
    } else if j < 8 {
      assert ws in [["maj", "may"], ["june", "juni", "jun"], ["july", "juli", "jul"], ["august", "aug"]];
    } else {
      assert ws in [["september", "sept", "sep"], ["october", "oct", "oktober", "okt"], ["november", "nov"], ["december", "dec"]];
    }
  }

  /** A word of two or more letters needs two neighbouring letters to match. */
  lemma NoLetterPairNoWord(text: string, words: seq<string>, p: nat)
    requires NoLetterPair(text)
    requires forall i :: 0 <= i < |words| ==> IsLowerWord(words[i]) && |words[i]| >= 2
    ensures FirstWordAt(text, p, words).None?
  {
    if FirstWordAt(text, p, words).Some? {
      var w := words[FirstWordAt(text, p, words).value];
      assert Lower(text[p]) == Lower(w[0]) && Lower(text[p + 1]) == Lower(w[1]);
      assert IsLetter(text[p]) && IsLetter(text[p + 1]);
      assert false;
    }
  }

  /** Text without two neighbouring letters never matches a month pattern. */
  lemma NoLetterPairNoMonth(text: string, cat: seq<Entry>)
    requires LowercaseWords(cat) && LongWords(cat) && NoLetterPair(text)
    ensures Best(text, cat).None?
  {
    forall j | 0 <= j < |cat|
      ensures Search(text, cat[j].words).None?
    {
      var r := Search(text, cat[j].words);
      if r.Some? {
        NoLetterPairNoWord(text, cat[j].words, r.value.start);
      }
    }
    BestNoneIffNoMatch(text, cat);
  }

  /** When no token has two neighbouring letters, the matcher leaves the list alone. */
  lemma NoLetterPairsNoName(cat: seq<Entry>, ts: seq<Token>)
    requires LowercaseWords(cat) && LongWords(cat)
    requires forall i :: 0 <= i < |ts| ==> NoLetterPair(Render(ts[i]))
    ensures MatchMonthName(cat, ts) == Named(ts, None)
  {
    var f := FindMonthToken(cat, ts, 0);
    if f.Some? {
      NoLetterPairNoMonth(Render(ts[f.value.index]), cat);
    }
  }
}

=== FILE: promises.dfy ===
/**
 * The promises of the module documentation (heuristic_date.py:32-55), proved
 * for whole families of inputs: a year, a day over 12 and a month number are
 * read the same way in any order; two candidate numbers with exactly two '.'
 * or '-' separators are read day-month-year or year-month-day; without that
 * evidence only the year is returned.
 *
 * The input is a parameter `s` tied to its pieces by a `requires s == …`
 * rather than written out in each `ensures`: the clauses name it several
 * times, and one name keeps them short and gives the solver a single term.
 */
module Promises {
  import opened Wrappers
  import opened Decimal
  import opened Runs
  import opened Bounds
  import opened Tokens
  import opened Classifier
  import opened MonthNames
  import opened Decision
  import opened DateText
  import opened HeuristicDate

  /** Text between two numbers: no digit, and no two neighbouring letters, so
      it cannot hold a month name. */
  predicate Gap(sp: string) {
    && |sp| > 0
    && (forall k :: 0 <= k < |sp| ==> !IsDigit(sp[k]))
    && NoLetterPair(sp)
  }

  /** Four digits in the year range whose first two digits are no two-digit
      year, so the yyMM shape (line 154) does not claim them. */
  predicate YearRun(cfg: Config, y: string) {
    IsNumeral(y) && |y| == 4 && IsYear(cfg, Value(y)) && !IsY2k(Value(y[..2]))
  }

  /** Two digits that can only be a day: 13..31. */
  predicate DayRun(d: string) {
    IsNumeral(d) && |d| == 2 && 12 < Value(d) <= 31
  }

  /** One or two digits in 1..12: a month or a day. */
  predicate SmallRun(m: string) {
    IsNumeral(m) && |m| <= 2 && 1 <= Value(m) <= 12
  }

  /** The runs of `a + sp + b + sp + c`. */
  lemma {:induction false} FiveRuns(a: string, sp: string, b: string, c: string)
    requires IsNumeral(a) && IsNumeral(b) && IsNumeral(c) && Gap(sp)
    ensures Tokenize(a + sp + b + sp + c) == [a, sp, b, sp, c]
  {
    var rs := [a, sp, b, sp, c];
    JoinCons(c, []);
    assert [sp] + [c] == [sp, c];
    JoinCons(sp, [c]);
    assert [b] + [sp, c] == [b, sp, c];
    JoinCons(b, [sp, c]);
    assert [sp] + [b, sp, c] == [sp, b, sp, c];
    JoinCons(sp, [b, sp, c]);
    assert [a] + [sp, b, sp, c] == rs;
    JoinCons(a, [sp, b, sp, c]);
    assert a + (sp + (b + (sp + (c + "")))) == a + sp + b + sp + c;
    assert IsRun(sp);
    assert forall i :: 0 <= i < |rs| ==> IsRun(rs[i]);
    assert !IsDigitRun(sp);
    assert ClassChangesAt(rs, 1) && ClassChangesAt(rs, 2) && ClassChangesAt(rs, 3) && ClassChangesAt(rs, 4);
    RunSplitUnique(a + sp + b + sp + c, rs);
  }

  /** One non-digit run `y` ahead of the runs `rest`, whose scan did not stop. */
  lemma StepText(cfg: Config, runs: seq<string>, y: string, rest: seq<string>, ev: Evidence,
                 tokens: seq<Token>, ts: seq<Token>, last: Evidence)
    requires runs == [y] + rest && tokens == [Text(y)] + ts
    requires !IsNumeral(y) && ClassifyRuns(cfg, rest, ev) == Classified(ts, last, None)
    ensures ClassifyRuns(cfg, runs, ev) == Classified(tokens, last, None)
  {
    ScanText(cfg, y, rest, ev);
  }

  /** One digit run `y` that no shape claims, ahead of the runs `rest`, whose
      scan did not stop. */
  lemma StepTag(cfg: Config, runs: seq<string>, y: string, rest: seq<string>, ev: Evidence, t: Tagged,
                tokens: seq<Token>, ts: seq<Token>, last: Evidence)
    requires runs == [y] + rest && tokens == [t.token] + ts
    requires IsNumeral(y) && ShapeRule(cfg, y, ev.year.None?).None? && TagRun(cfg, y, ev) == t
    requires ClassifyRuns(cfg, rest, t.ev) == Classified(ts, last, None)
    ensures ClassifyRuns(cfg, runs, ev) == Classified(tokens, last, None)
  {
    ScanTag(cfg, y, rest, ev);
  }

  /** The scan over no runs. */
  lemma ScanNone(cfg: Config, ev: Evidence)
    ensures ClassifyRuns(cfg, [], ev) == Classified([], ev, None)
  {
  }

  /** The scan over one digit run that no shape claims. */
  lemma ScanOne(cfg: Config, c: string, ev: Evidence, t: Tagged)
    requires IsNumeral(c) && ShapeRule(cfg, c, ev.year.None?).None? && TagRun(cfg, c, ev) == t
    ensures ClassifyRuns(cfg, [c], ev) == Classified([t.token], t.ev, None)
  {
    ScanNone(cfg, t.ev);
    StepTag(cfg, [c], c, [], ev, t, [t.token], [], t.ev);
  }

  /** The scan over two digit runs that no shape claims, with text between them. */
  lemma ScanThree(cfg: Config, b: string, sp: string, c: string, ev: Evidence, t2: Tagged, t3: Tagged)
    requires IsNumeral(b) && IsNumeral(c) && !IsNumeral(sp)
    requires ShapeRule(cfg, b, ev.year.None?).None? && TagRun(cfg, b, ev) == t2
    requires ShapeRule(cfg, c, t2.ev.year.None?).None? && TagRun(cfg, c, t2.ev) == t3
    ensures ClassifyRuns(cfg, [b, sp, c], ev) == Classified([t2.token, Text(sp), t3.token], t3.ev, None)
  {
    ScanOne(cfg, c, t2.ev, t3);
    StepText(cfg, [sp, c], sp, [c], t2.ev, [Text(sp), t3.token], [t3.token], t3.ev);
    StepTag(cfg, [b, sp, c], b, [sp, c], ev, t2, [t2.token, Text(sp), t3.token], [Text(sp), t3.token], t3.ev);
  }

  /** The scan over three digit runs that no shape claims, with text between them:
      each is tagged in turn, and the text between them is kept. */
  lemma ScanFive(cfg: Config, a: string, sp: string, b: string, c: string, ev: Evidence,
                 t1: Tagged, t2: Tagged, t3: Tagged)
    requires IsNumeral(a) && IsNumeral(b) && IsNumeral(c) && !IsNumeral(sp)
    requires ShapeRule(cfg, a, ev.year.None?).None? && TagRun(cfg, a, ev) == t1
    requires ShapeRule(cfg, b, t1.ev.year.None?).None? && TagRun(cfg, b, t1.ev) == t2
    requires ShapeRule(cfg, c, t2.ev.year.None?).None? && TagRun(cfg, c, t2.ev) == t3
    ensures ClassifyRuns(cfg, [a, sp, b, sp, c], ev) ==
            Classified([t1.token, Text(sp), t2.token, Text(sp), t3.token], t3.ev, None)
  {
    ScanThree(cfg, b, sp, c, t1.ev, t2, t3);
    StepText(cfg, [sp, b, sp, c], sp, [b, sp, c], t1.ev,
             [Text(sp), t2.token, Text(sp), t3.token], [t2.token, Text(sp), t3.token], t3.ev);
    StepTag(cfg, [a, sp, b, sp, c], a, [sp, b, sp, c], ev, t1,
            [t1.token, Text(sp), t2.token, Text(sp), t3.token], [Text(sp), t2.token, Text(sp), t3.token], t3.ev);
  }

  /** A tag is the marker, a letter and digits: never two neighbouring letters. */
  lemma RendersNoLetterPair(t: Token, x: string)
    requires Renders(t, x) && IsNumeral(x) && t != Text(x)
    ensures NoLetterPair(Render(t))
  {
    var r := Render(t);
    assert r[0] == Mark;
    forall j | 2 <= j < |r|
      ensures !IsLetter(r[j])
    {
      assert r[2..] == x || r[2..] == "19" + x;
      assert r[j] == r[2..][j - 2];
    }
  }

  /** `x` is a digit run that no shape claims and that the classifier tags as `t`. */
  predicate Tags(cfg: Config, x: string, ev: Evidence, t: Tagged) {
    && IsNumeral(x)
    && ShapeRule(cfg, x, ev.year.None?).None?
    && TagRun(cfg, x, ev) == t
    && !t.token.Text?
  }

  /**
   * `a + sp + b + sp + c` where each number is tagged: the month-name step
   * finds nothing, so the decision table sees the scan's evidence and tokens.
   */
  lemma ReadFive(cfg: Config, a: string, sp: string, b: string, c: string, t1: Tagged, t2: Tagged, t3: Tagged, s: string)
    requires s == a + sp + b + sp + c
    requires Gap(sp) && Tags(cfg, a, NoEvidence, t1) && Tags(cfg, b, t1.ev, t2) && Tags(cfg, c, t2.ev, t3)
    ensures |s| > 0 && Read(cfg, s).ev == t3.ev
    ensures Read(cfg, s).named.tokens == [t1.token, Text(sp), t2.token, Text(sp), t3.token]
    ensures Read(cfg, s).date == Decide(t3.ev, Layout([t1.token, Text(sp), t2.token, Text(sp), t3.token]))
  {
    var ts := [t1.token, Text(sp), t2.token, Text(sp), t3.token];
    ScannedFive(cfg, a, sp, b, c, t1, t2, t3, s);
    UnnamedFive(cfg, a, sp, b, c, t1, t2, t3);
  }

  /** The runs and the scan of `a + sp + b + sp + c`. */
  lemma ScannedFive(cfg: Config, a: string, sp: string, b: string, c: string, t1: Tagged, t2: Tagged, t3: Tagged, s: string)
    requires s == a + sp + b + sp + c
    requires Gap(sp) && Tags(cfg, a, NoEvidence, t1) && Tags(cfg, b, t1.ev, t2) && Tags(cfg, c, t2.ev, t3)
    ensures ClassifyRuns(cfg, Tokenize(s), NoEvidence) ==
            Classified([t1.token, Text(sp), t2.token, Text(sp), t3.token], t3.ev, None)
  {
    FiveRuns(a, sp, b, c);
    assert !IsDigit(sp[0]);
    ScanFive(cfg, a, sp, b, c, NoEvidence, t1, t2, t3);
  }

  /** Tags and a gap name no month. */
  lemma UnnamedFive(cfg: Config, a: string, sp: string, b: string, c: string, t1: Tagged, t2: Tagged, t3: Tagged)
    requires Gap(sp) && Tags(cfg, a, NoEvidence, t1) && Tags(cfg, b, t1.ev, t2) && Tags(cfg, c, t2.ev, t3)
    ensures MatchMonthName(Catalogue, [t1.token, Text(sp), t2.token, Text(sp), t3.token]) ==
            Named([t1.token, Text(sp), t2.token, Text(sp), t3.token], None)
  {
    var ts := [t1.token, Text(sp), t2.token, Text(sp), t3.token];
    RendersNoLetterPair(t1.token, a);
    RendersNoLetterPair(t2.token, b);
    RendersNoLetterPair(t3.token, c);
    assert NoLetterPair(Render(Text(sp)));
    NoPairsFive(ts, t1.token, Text(sp), t2.token, t3.token);
    CatalogueLowercaseWords();
    CatalogueLongWords();
    NoLetterPairsNoName(Catalogue, ts);
  }

  /** Five tokens, none holding two neighbouring letters. */
  lemma NoPairsFive(ts: seq<Token>, a: Token, g: Token, b: Token, c: Token)
    requires ts == [a, g, b, g, c]
    requires NoLetterPair(Render(a)) && NoLetterPair(Render(g)) && NoLetterPair(Render(b)) && NoLetterPair(Render(c))
    ensures forall i :: 0 <= i < |ts| ==> NoLetterPair(Render(ts[i]))
  {
  }

  /** A year run is tagged as the year while none is known. */
  lemma TagYear(cfg: Config, y: string, ev: Evidence)
    requires YearRun(cfg, y) && ev.year.None?
    ensures Tags(cfg, y, ev, Tagged(YearTag(y), ev.(year := Some(Value(y)))))
  {
  }

  /** A day run is tagged as the day while none is known, whatever the year. */
  lemma TagDay(cfg: Config, d: string, ev: Evidence)
    requires DayRun(d) && ev.day.None?
    ensures Tags(cfg, d, ev, Tagged(DayTag(d), ev.(day := Some(Value(d)))))
  {
  }

  /** A small run is always a candidate number. */
  lemma TagSmall(cfg: Config, m: string, ev: Evidence)
    requires SmallRun(m)
    ensures Tags(cfg, m, ev, Tagged(NumTag(m), ev.(nbrs := ev.nbrs + [Value(m)])))
  {
  }

  /** What `interpret` returns once the date is decided. */
  lemma Answer(cfg: Config, s: string, d: Date)
    requires |s| > 0 && Read(cfg, s).date == Some(d)
    ensures Interpret(cfg, s) == Some(Format(d))
  {
  }

  /**
   * Three tagged numbers whose evidence ends as a year, a day and one candidate
   * month: the table's rule at line 218 gives the full date.
   */
  lemma FullDateFrom(cfg: Config, a: string, sp: string, b: string, c: string,
                     t1: Tagged, t2: Tagged, t3: Tagged, year: nat, month: nat, day: nat, s: string)
    requires s == a + sp + b + sp + c
    requires Gap(sp) && Tags(cfg, a, NoEvidence, t1) && Tags(cfg, b, t1.ev, t2) && Tags(cfg, c, t2.ev, t3)
    requires t3.ev == Evidence(Some(year), None, Some(day), [month]) && IsMonth(month)
    ensures |s| > 0 && Read(cfg, s).date == Some(FullDate(year, month, day))
  {
    ReadFive(cfg, a, sp, b, c, t1, t2, t3, s);
  }

  /** The six orders of three runs. */
  function Orders(x: string, y: string, z: string): seq<seq<string>> {
    [[x, y, z], [x, z, y], [y, x, z], [y, z, x], [z, x, y], [z, y, x]]
  }

  lemma OrderYDM(cfg: Config, y: string, d: string, m: string, sp: string, s: string)
    requires YearRun(cfg, y) && DayRun(d) && SmallRun(m) && Gap(sp) && s == y + sp + d + sp + m
    ensures |s| > 0 && Read(cfg, s).date == Some(FullDate(Value(y), Value(m), Value(d)))
  {
    var e0 := NoEvidence;
    TagYear(cfg, y, e0);
    var t1 := Tagged(YearTag(y), e0.(year := Some(Value(y))));
    TagDay(cfg, d, t1.ev);
    var t2 := Tagged(DayTag(d), t1.ev.(day := Some(Value(d))));
    TagSmall(cfg, m, t2.ev);
    var t3 := Tagged(NumTag(m), t2.ev.(nbrs := t2.ev.nbrs + [Value(m)]));
    FullDateFrom(cfg, y, sp, d, m, t1, t2, t3, Value(y), Value(m), Value(d), s);
  }

  lemma OrderYMD(cfg: Config, y: string, d: string, m: string, sp: string, s: string)
    requires YearRun(cfg, y) && DayRun(d) && SmallRun(m) && Gap(sp) && s == y + sp + m + sp + d
    ensures |s| > 0 && Read(cfg, s).date == Some(FullDate(Value(y), Value(m), Value(d)))
  {
    var e0 := NoEvidence;
    TagYear(cfg, y, e0);
    var t1 := Tagged(YearTag(y), e0.(year := Some(Value(y))));
    TagSmall(cfg, m, t1.ev);
    var t2 := Tagged(NumTag(m), t1.ev.(nbrs := t1.ev.nbrs + [Value(m)]));
    TagDay(cfg, d, t2.ev);
    var t3 := Tagged(DayTag(d), t2.ev.(day := Some(Value(d))));
    FullDateFrom(cfg, y, sp, m, d, t1, t2, t3, Value(y), Value(m), Value(d), s);
  }

  lemma OrderDYM(cfg: Config, y: string, d: string, m: string, sp: string, s: string)
    requires YearRun(cfg, y) && DayRun(d) && SmallRun(m) && Gap(sp) && s == d + sp + y + sp + m
    ensures |s| > 0 && Read(cfg, s).date == Some(FullDate(Value(y), Value(m), Value(d)))
  {
    var e0 := NoEvidence;
    TagDay(cfg, d, e0);
    var t1 := Tagged(DayTag(d), e0.(day := Some(Value(d))));
    TagYear(cfg, y, t1.ev);
    var t2 := Tagged(YearTag(y), t1.ev.(year := Some(Value(y))));
    TagSmall(cfg, m, t2.ev);
    var t3 := Tagged(NumTag(m), t2.ev.(nbrs := t2.ev.nbrs + [Value(m)]));
    FullDateFrom(cfg, d, sp, y, m, t1, t2, t3, Value(y), Value(m), Value(d), s);
  }

  lemma OrderDMY(cfg: Config, y: string, d: string, m: string, sp: string, s: string)
    requires YearRun(cfg, y) && DayRun(d) && SmallRun(m) && Gap(sp) && s == d + sp + m + sp + y
    ensures |s| > 0 && Read(cfg, s).date == Some(FullDate(Value(y), Value(m), Value(d)))
  {
    var e0 := NoEvidence;
    TagDay(cfg, d, e0);
    var t1 := Tagged(DayTag(d), e0.(day := Some(Value(d))));
    TagSmall(cfg, m, t1.ev);
    var t2 := Tagged(NumTag(m), t1.ev.(nbrs := t1.ev.nbrs + [Value(m)]));
    TagYear(cfg, y, t2.ev);
    var t3 := Tagged(YearTag(y), t2.ev.(year := Some(Value(y))));
    FullDateFrom(cfg, d, sp, m, y, t1, t2, t3, Value(y), Value(m), Value(d), s);
  }

  lemma OrderMYD(cfg: Config, y: string, d: string, m: string, sp: string, s: string)
    requires YearRun(cfg, y) && DayRun(d) && SmallRun(m) && Gap(sp) && s == m + sp + y + sp + d
    ensures |s| > 0 && Read(cfg, s).date == Some(FullDate(Value(y), Value(m), Value(d)))
  {
    var e0 := NoEvidence;
    TagSmall(cfg, m, e0);
    var t1 := Tagged(NumTag(m), e0.(nbrs := e0.nbrs + [Value(m)]));
    TagYear(cfg, y, t1.ev);
    var t2 := Tagged(YearTag(y), t1.ev.(year := Some(Value(y))));
    TagDay(cfg, d, t2.ev);
    var t3 := Tagged(DayTag(d), t2.ev.(day := Some(Value(d))));
    FullDateFrom(cfg, m, sp, y, d, t1, t2, t3, Value(y), Value(m), Value(d), s);
  }

  lemma OrderMDY(cfg: Config, y: string, d: string, m: string, sp: string, s: string)
    requires YearRun(cfg, y) && DayRun(d) && SmallRun(m) && Gap(sp) && s == m + sp + d + sp + y
    ensures |s| > 0 && Read(cfg, s).date == Some(FullDate(Value(y), Value(m), Value(d)))
  {
    var e0 := NoEvidence;
    TagSmall(cfg, m, e0);
    var t1 := Tagged(NumTag(m), e0.(nbrs := e0.nbrs + [Value(m)]));
    TagDay(cfg, d, t1.ev);
    var t2 := Tagged(DayTag(d), t1.ev.(day := Some(Value(d))));
    TagYear(cfg, y, t2.ev);
    var t3 := Tagged(YearTag(y), t2.ev.(year := Some(Value(y))));
    FullDateFrom(cfg, m, sp, d, y, t1, t2, t3, Value(y), Value(m), Value(d), s);
  }

  /**
   * heuristic_date.py:44-45: a year, a day over 12 and a month number give the
   * same full date in any of the six orders.
   */
  lemma OrderDoesNotMatter(cfg: Config, y: string, d: string, m: string, sp: string, order: seq<string>)
    requires YearRun(cfg, y) && DayRun(d) && SmallRun(m) && Gap(sp)
    requires order in Orders(y, d, m)
    ensures Interpret(cfg, order[0] + sp + order[1] + sp + order[2]) ==
            Some(Format(FullDate(Value(y), Value(m), Value(d))))
  {
    if order == [y, d, m] {
      OrderYDM(cfg, y, d, m, sp, order[0] + sp + order[1] + sp + order[2]);
    } else if order == [y, m, d] {
      OrderYMD(cfg, y, d, m, sp, order[0] + sp + order[1] + sp + order[2]);
    } else if order == [d, y, m] {
      OrderDYM(cfg, y, d, m, sp, order[0] + sp + order[1] + sp + order[2]);
    } else if order == [d, m, y] {
      OrderDMY(cfg, y, d, m, sp, order[0] + sp + order[1] + sp + order[2]);
    } else if order == [m, y, d] {
      OrderMYD(cfg, y, d, m, sp, order[0] + sp + order[1] + sp + order[2]);
    } else {
      assert order == [m, d, y];
      OrderMDY(cfg, y, d, m, sp, order[0] + sp + order[1] + sp + order[2]);
    }
    Answer(cfg, order[0] + sp + order[1] + sp + order[2], FullDate(Value(y), Value(m), Value(d)));
  }

  /** `a + [sep] + b + [sep] + c` over digit runs holds `sep` exactly twice. */
  lemma SeparatorCount(a: string, b: string, c: string, sep: char)
    requires DigitsOnly(a) && DigitsOnly(b) && DigitsOnly(c) && !IsDigit(sep)
    ensures Count(sep, a + [sep] + b + [sep] + c) == 2
  {
    CountNonDigit(sep, a);
    CountNonDigit(sep, b);
    CountNonDigit(sep, c);
    assert Count(sep, [sep]) == 1 by {
      assert [sep][..0] == [];
    }
    CountConcat(sep, a, [sep]);
    CountConcat(sep, a + [sep], b);
    CountConcat(sep, a + [sep] + b, [sep]);
    CountConcat(sep, a + [sep] + b + [sep], c);
  }

  /** Text with neither separator, between digit runs, leaves none to count. */
  lemma NoSeparatorCount(a: string, sp: string, b: string, c: string, sep: char)
    requires DigitsOnly(a) && DigitsOnly(b) && DigitsOnly(c) && !IsDigit(sep)
    requires forall k :: 0 <= k < |sp| ==> sp[k] != sep
    ensures Count(sep, a + sp + b + sp + c) == 0
  {
    CountNonDigit(sep, a);
    CountNonDigit(sep, b);
    CountNonDigit(sep, c);
    CountAbsent(sep, sp);
    CountConcat(sep, a, sp);
    CountConcat(sep, a + sp, b);
    CountConcat(sep, a + sp + b, sp);
    CountConcat(sep, a + sp + b + sp, c);
  }

  /** A single separator is a gap. */
  lemma SeparatorGap(sep: char)
    requires IsSeparator(sep)
    ensures Gap([sep])
  {
  }

  /** A year tag is year-marked; a candidate tag is not. */
  lemma Marks(y: string, n: string)
    ensures YearMarked(Render(YearTag(y)))
    ensures !YearMarked(Render(NumTag(n)))
  {
    assert Render(YearTag(y))[..2] == [Mark, 'y'];
    assert Render(NumTag(n))[..2][1] == 'n';
  }

  /**
   * heuristic_date.py:47-48 and 228: two numbers that could each be a day
   * or a month, exactly two '.' or '-', and the year last: day-month-year.
   */
  lemma DayMonthYear(cfg: Config, a: string, b: string, y: string, sep: char, s: string)
    requires SmallRun(a) && SmallRun(b) && YearRun(cfg, y) && IsSeparator(sep)
    requires s == a + [sep] + b + [sep] + y
    ensures |s| > 0 && Read(cfg, s).date == Some(FullDate(Value(y), Value(b), Value(a)))
  {
    var sp := [sep];
    SeparatorGap(sep);
    var t1 := Tagged(NumTag(a), Evidence(None, None, None, [Value(a)]));
    var t2 := Tagged(NumTag(b), Evidence(None, None, None, [Value(a), Value(b)]));
    var t3 := Tagged(YearTag(y), Evidence(Some(Value(y)), None, None, [Value(a), Value(b)]));
    TagsSmallSmallYear(cfg, a, b, y, t1, t2, t3);
    var ts := [t1.token, Text(sp), t2.token, Text(sp), t3.token];
    ReadFive(cfg, a, sp, b, y, t1, t2, t3, s);
    SeparatorsKept(cfg, s, sep);
    SeparatorCount(a, b, y, sep);
    Marks(y, a);
    TwoCandidates(t3.ev, Layout(ts), Value(y), Value(a), Value(b));
  }

  /**
   * heuristic_date.py:47-48 and 232: the year first and exactly two '.' or
   * '-': year-month-day.
   */
  lemma YearMonthDay(cfg: Config, y: string, a: string, b: string, sep: char, s: string)
    requires SmallRun(a) && SmallRun(b) && YearRun(cfg, y) && IsSeparator(sep)
    requires s == y + [sep] + a + [sep] + b
    ensures |s| > 0 && Read(cfg, s).date == Some(FullDate(Value(y), Value(a), Value(b)))
  {
    var sp := [sep];
    SeparatorGap(sep);
    var t1 := Tagged(YearTag(y), Evidence(Some(Value(y)), None, None, []));
    var t2 := Tagged(NumTag(a), Evidence(Some(Value(y)), None, None, [Value(a)]));
    var t3 := Tagged(NumTag(b), Evidence(Some(Value(y)), None, None, [Value(a), Value(b)]));
    TagsYearSmallSmall(cfg, y, a, b, t1, t2, t3);
    var ts := [t1.token, Text(sp), t2.token, Text(sp), t3.token];
    ReadFive(cfg, y, sp, a, b, t1, t2, t3, s);
    SeparatorsKept(cfg, s, sep);
    SeparatorCount(y, a, b, sep);
    Marks(y, b);
    TwoCandidates(t3.ev, Layout(ts), Value(y), Value(a), Value(b));
  }

  /** The decision table on a year and two candidates that are each a day and a
      month, with the separator evidence: the year tag's place picks the reading. */
  lemma TwoCandidates(ev: Evidence, l: seq<string>, year: nat, n0: nat, n1: nat)
    requires ev == Evidence(Some(year), None, None, [n0, n1]) && IsMonth(n0) && IsMonth(n1)
    requires TwoSeparators(Join(l)) && |l| > 0
    requires LastYearMarked(l) != FirstYearMarked(l)
    ensures LastYearMarked(l) ==> Decide(ev, l) == Some(FullDate(year, n1, n0))
    ensures FirstYearMarked(l) ==> Decide(ev, l) == Some(FullDate(year, n0, n1))
  {
  }

  /** A gap with neither '-' nor '.'. */
  predicate Plain(sp: string) {
    Gap(sp) && forall k :: 0 <= k < |sp| ==> !IsSeparator(sp[k])
  }

  /** Two candidates without the separator evidence: only the year. */
  lemma YearOnlyFrom(cfg: Config, a: string, sp: string, b: string, c: string,
                     t1: Tagged, t2: Tagged, t3: Tagged, year: nat, n0: nat, n1: nat, s: string)
    requires s == a + sp + b + sp + c && Plain(sp)
    requires Tags(cfg, a, NoEvidence, t1) && Tags(cfg, b, t1.ev, t2) && Tags(cfg, c, t2.ev, t3)
    requires t3.ev == Evidence(Some(year), None, None, [n0, n1])
    ensures |s| > 0 && Read(cfg, s).date == Some(Year(year))
  {
    ReadFive(cfg, a, sp, b, c, t1, t2, t3, s);
    NoSeparatorCount(a, sp, b, c, '-');
    NoSeparatorCount(a, sp, b, c, '.');
    SeparatorsKept(cfg, s, '-');
    SeparatorsKept(cfg, s, '.');
  }

  /**
   * heuristic_date.py:50: with the year first and two numbers that could each
   * be a day or a month, and no '.' or '-' to fix the order, only the year is
   * returned.
   */
  lemma AmbiguousYearFirst(cfg: Config, y: string, a: string, b: string, sp: string, s: string)
    requires SmallRun(a) && SmallRun(b) && YearRun(cfg, y) && Plain(sp)
    requires s == y + sp + a + sp + b
    ensures |s| > 0 && Read(cfg, s).date == Some(Year(Value(y)))
  {
    var t1 := Tagged(YearTag(y), Evidence(Some(Value(y)), None, None, []));
    var t2 := Tagged(NumTag(a), Evidence(Some(Value(y)), None, None, [Value(a)]));
    var t3 := Tagged(NumTag(b), Evidence(Some(Value(y)), None, None, [Value(a), Value(b)]));
    TagsYearSmallSmall(cfg, y, a, b, t1, t2, t3);
    YearOnlyFrom(cfg, y, sp, a, b, t1, t2, t3, Value(y), Value(a), Value(b), s);
  }

  /** The same with the year last. */
  lemma AmbiguousYearLast(cfg: Config, a: string, b: string, y: string, sp: string, s: string)
    requires SmallRun(a) && SmallRun(b) && YearRun(cfg, y) && Plain(sp)
    requires s == a + sp + b + sp + y
    ensures |s| > 0 && Read(cfg, s).date == Some(Year(Value(y)))
  {
    var t1 := Tagged(NumTag(a), Evidence(None, None, None, [Value(a)]));
    var t2 := Tagged(NumTag(b), Evidence(None, None, None, [Value(a), Value(b)]));
    var t3 := Tagged(YearTag(y), Evidence(Some(Value(y)), None, None, [Value(a), Value(b)]));
    TagsSmallSmallYear(cfg, a, b, y, t1, t2, t3);
    YearOnlyFrom(cfg, a, sp, b, y, t1, t2, t3, Value(y), Value(a), Value(b), s);
  }

  /** Two candidates, then the year. */
  lemma TagsSmallSmallYear(cfg: Config, a: string, b: string, y: string, t1: Tagged, t2: Tagged, t3: Tagged)
    requires SmallRun(a) && SmallRun(b) && YearRun(cfg, y)
    requires t1 == Tagged(NumTag(a), Evidence(None, None, None, [Value(a)]))
    requires t2 == Tagged(NumTag(b), Evidence(None, None, None, [Value(a), Value(b)]))
    requires t3 == Tagged(YearTag(y), Evidence(Some(Value(y)), None, None, [Value(a), Value(b)]))
    ensures Tags(cfg, a, NoEvidence, t1) && Tags(cfg, b, t1.ev, t2) && Tags(cfg, y, t2.ev, t3)
  {
    TagSmall(cfg, a, NoEvidence);
    TagSmall(cfg, b, t1.ev);
    TagYear(cfg, y, t2.ev);
  }

  /** The year, then two candidates. */
  lemma TagsYearSmallSmall(cfg: Config, y: string, a: string, b: string, t1: Tagged, t2: Tagged, t3: Tagged)
    requires YearRun(cfg, y) && SmallRun(a) && SmallRun(b)
    requires t1 == Tagged(YearTag(y), Evidence(Some(Value(y)), None, None, []))
    requires t2 == Tagged(NumTag(a), Evidence(Some(Value(y)), None, None, [Value(a)]))
    requires t3 == Tagged(NumTag(b), Evidence(Some(Value(y)), None, None, [Value(a), Value(b)]))
    ensures Tags(cfg, y, NoEvidence, t1) && Tags(cfg, a, t1.ev, t2) && Tags(cfg, b, t2.ev, t3)
  {
    TagYear(cfg, y, NoEvidence);
    TagSmall(cfg, a, t1.ev);
    TagSmall(cfg, b, t2.ev);
  }

  /** A run of text: non-empty, without digits. */
  predicate Wording(w: string) {
    |w| > 0 && forall k :: 0 <= k < |w| ==> !IsDigit(w[k])
  }

  /** The runs of `w + y + sp + n`. */
  lemma {:induction false} FourRuns(w: string, y: string, sp: string, n: string)
    requires Wording(w) && IsNumeral(y) && IsNumeral(n) && Gap(sp)
    ensures Tokenize(w + y + sp + n) == [w, y, sp, n]
  {
    var rs := [w, y, sp, n];
    JoinCons(n, []);
    assert [sp] + [n] == [sp, n];
    JoinCons(sp, [n]);
    assert [y] + [sp, n] == [y, sp, n];
    JoinCons(y, [sp, n]);
    assert [w] + [y, sp, n] == rs;
    JoinCons(w, [y, sp, n]);
    assert w + (y + (sp + (n + ""))) == w + y + sp + n;
    assert IsRun(sp) && IsRun(w);
    assert forall i :: 0 <= i < |rs| ==> IsRun(rs[i]);
    assert !IsDigitRun(sp) && !IsDigitRun(w);
    assert ClassChangesAt(rs, 1) && ClassChangesAt(rs, 2) && ClassChangesAt(rs, 3);
    RunSplitUnique(w + y + sp + n, rs);
  }

  /** The scan over a text run followed by two tagged numbers with a gap between. */
  lemma ScanFour(cfg: Config, w: string, y: string, sp: string, n: string, t2: Tagged, t3: Tagged)
    requires Wording(w) && Gap(sp) && Tags(cfg, y, NoEvidence, t2) && Tags(cfg, n, t2.ev, t3)
    ensures ClassifyRuns(cfg, [w, y, sp, n], NoEvidence) ==
            Classified([Text(w), t2.token, Text(sp), t3.token], t3.ev, None)
  {
    assert !IsDigit(w[0]) && !IsDigit(sp[0]);
    ScanThree(cfg, y, sp, n, NoEvidence, t2, t3);
    StepText(cfg, [w, y, sp, n], w, [y, sp, n], NoEvidence,
             [Text(w), t2.token, Text(sp), t3.token], [t2.token, Text(sp), t3.token], t3.ev);
  }

  /** A month pattern matching in the first token: that token is the one found. */
  lemma NamedFirst(w: string, ts: seq<Token>, p: Pick)
    requires |ts| > 0 && ts[0] == Text(w) && Best(w, Catalogue) == Some(p)
    ensures MatchMonthName(Catalogue, ts).found == Some(Found(0, p, Catalogue[p.entry].month))
  {
    assert Render(ts[0]) == w;
  }

  /** A text run naming a month, then two tagged numbers: the evidence the
      decision table sees is the scan's, with the named month added. */
  lemma ReadNamedFour(cfg: Config, w: string, p: Pick, y: string, sp: string, n: string,
                      t2: Tagged, t3: Tagged, s: string)
    requires s == w + y + sp + n
    requires Wording(w) && Best(w, Catalogue) == Some(p) && Gap(sp)
    requires Tags(cfg, y, NoEvidence, t2) && Tags(cfg, n, t2.ev, t3)
    ensures p.entry < |Catalogue| && |s| > 0
    ensures Read(cfg, s).ev == t3.ev.(month := Some(Catalogue[p.entry].month))
    ensures Read(cfg, s).date == Decide(Read(cfg, s).ev, Layout(Read(cfg, s).named.tokens))
  {
    FourRuns(w, y, sp, n);
    ScanFour(cfg, w, y, sp, n, t2, t3);
    NamedFirst(w, [Text(w), t2.token, Text(sp), t3.token], p);
  }

  /**
   * heuristic_date.py:45 ("aug 1923 12") and 194, 208-209, 214-215: a month
   * name in the leading text, then a year and a day number, give the full date
   * with the month the name stands for.
   */
  lemma NamedMonthYearDay(cfg: Config, w: string, p: Pick, y: string, sp: string, n: string, s: string)
    requires s == w + y + sp + n
    requires Wording(w) && Best(w, Catalogue) == Some(p)
    requires YearRun(cfg, y) && Gap(sp) && (SmallRun(n) || DayRun(n))
    ensures p.entry < |Catalogue|
    ensures |s| > 0 && Read(cfg, s).date == Some(FullDate(Value(y), Catalogue[p.entry].month, Value(n)))
  {
    TagYear(cfg, y, NoEvidence);
    var t2 := Tagged(YearTag(y), NoEvidence.(year := Some(Value(y))));
    if SmallRun(n) {
      TagSmall(cfg, n, t2.ev);
      var t3 := Tagged(NumTag(n), t2.ev.(nbrs := t2.ev.nbrs + [Value(n)]));
      ReadNamedFour(cfg, w, p, y, sp, n, t2, t3, s);
    } else {
      TagDay(cfg, n, t2.ev);
      var t3 := Tagged(DayTag(n), t2.ev.(day := Some(Value(n))));
      ReadNamedFour(cfg, w, p, y, sp, n, t2, t3, s);
    }
  }

  /** Once the year is known, a non-zero run of one or two digits that cannot
      be taken as the day is tagged as a candidate. */
  lemma TagLeftover(cfg: Config, n: string, ev: Evidence)
    requires IsNumeral(n) && |n| <= 2 && Value(n) != 0 && ev.year.Some?
    requires ev.day.Some? || !(|n| == 2 && 12 < Value(n) <= 31)
    ensures Tags(cfg, n, ev, Tagged(NumTag(n), ev.(nbrs := ev.nbrs + [Value(n)])))
  {
  }

  /**
   * heuristic_date.py:50 and 166-171, 217-221, 237 ("1983 15 20"): a year, a
   * day over 12, and a second number over 12 that is left over as a candidate.
   * The candidate can be no month, so only the year is returned.
   */
  lemma YearDayLeftover(cfg: Config, y: string, d: string, n: string, sp: string, s: string)
    requires YearRun(cfg, y) && DayRun(d) && Gap(sp) && s == y + sp + d + sp + n
    requires IsNumeral(n) && |n| == 2 && Value(n) > 12
    ensures |s| > 0 && Read(cfg, s).date == Some(Year(Value(y)))
  {
    var e0 := NoEvidence;
    TagYear(cfg, y, e0);
    var t1 := Tagged(YearTag(y), e0.(year := Some(Value(y))));
    TagDay(cfg, d, t1.ev);
    var t2 := Tagged(DayTag(d), t1.ev.(day := Some(Value(d))));
    TagLeftover(cfg, n, t2.ev);
    var t3 := Tagged(NumTag(n), t2.ev.(nbrs := t2.ev.nbrs + [Value(n)]));
    ReadFive(cfg, y, sp, d, n, t1, t2, t3, s);
  }
}

=== FILE: runs.dfy ===
/**
 * The tokenizer of `interpret`: the input is cut into maximal runs that are
 * either all decimal digits or all non-digits.
 */
module Runs {
  import opened Decimal

  /** `"".join(rs)`. */
  function Join(rs: seq<string>): string {
    if |rs| == 0 then "" else Join(rs[..|rs| - 1]) + rs[|rs| - 1]
  }

  lemma {:induction false} JoinAppend(a: seq<string>, b: seq<string>)
    ensures Join(a + b) == Join(a) + Join(b)
    decreases |b|
  {
    if |b| == 0 {
      assert a + b == a;
    } else {
      var b' := b[..|b| - 1];
      JoinAppend(a, b');
      assert (a + b)[..|a + b| - 1] == a + b';
    }
  }

  lemma JoinCons(r: string, rs: seq<string>)
    ensures Join([r] + rs) == r + Join(rs)
  {
    JoinAppend([r], rs);
    assert [r][..0] == [];
  }

  /** Whether a (non-empty) run is a run of digits. */
  function IsDigitRun(r: string): bool
    requires |r| > 0
  {
    IsDigit(r[0])
  }

  /** A non-empty string whose characters all share the digit/non-digit class. */
  predicate IsRun(r: string) {
    |r| > 0 && forall j :: 0 <= j < |r| ==> IsDigit(r[j]) == IsDigit(r[0])
  }

  /** The runs meeting at position `i` are of different classes. */
  predicate ClassChangesAt(rs: seq<string>, i: nat)
    requires 0 < i < |rs|
  {
    |rs[i - 1]| > 0 && |rs[i]| > 0 && IsDigitRun(rs[i - 1]) != IsDigitRun(rs[i])
  }

  /** `rs` cuts `s` into maximal runs: they concatenate back to `s`, each is a run,
      and neighbouring runs are of different classes. There is at least one run,
      since the source seeds the first run with the input's first character. */
  predicate IsRunSplit(s: string, rs: seq<string>) {
    && |rs| > 0
    && Join(rs) == s
    && (forall i :: 0 <= i < |rs| ==> IsRun(rs[i]))
    && (forall i :: 0 < i < |rs| ==> ClassChangesAt(rs, i))
  }

  /** Opening a new run for a character of the other class keeps a maximal split. */
  lemma SplitOpen(s: string, rs: seq<string>, c: char)
    requires IsRunSplit(s, rs)
    requires IsDigit(c) != IsDigitRun(rs[|rs| - 1])
    ensures IsRunSplit(s + [c], rs + [[c]])
  {
    var rs' := rs + [[c]];
    assert rs'[..|rs'| - 1] == rs;
    forall i | 0 < i < |rs'|
      ensures ClassChangesAt(rs', i)
    {
      if i < |rs| {
        assert ClassChangesAt(rs, i);
      }
    }
  }

  /** Appending a character of the same class to the last run keeps a maximal split. */
  lemma SplitExtend(s: string, rs: seq<string>, c: char)
    requires IsRunSplit(s, rs)
    requires IsDigit(c) == IsDigitRun(rs[|rs| - 1])
    ensures IsRunSplit(s + [c], rs[..|rs| - 1] + [rs[|rs| - 1] + [c]])
  {
    var last := rs[|rs| - 1];
    var pre := rs[..|rs| - 1];
    var rs' := pre + [last + [c]];
    assert rs'[..|rs'| - 1] == pre;
    assert rs == pre + [last];
    assert Join(rs) == Join(pre) + last;
    assert IsRun(last);
    forall i | 0 < i < |rs'|
      ensures ClassChangesAt(rs', i)
    {
      assert ClassChangesAt(rs, i);
    }
  }

  /**
   * heuristic_date.py:111-116: start with the first character, then either
   * extend the last run or open a new one, depending on whether the next
   * character's digit class differs from the last character seen.
   */
  function Tokenize(s: string): (rs: seq<string>)
    requires |s| > 0
    ensures IsRunSplit(s, rs)
    decreases |s|
  {
    if |s| == 1 then
      assert Join([s]) == s by { JoinCons(s, []); }
      [s]
    else
      var s' := s[..|s| - 1];
      var c := s[|s| - 1];
      assert s == s' + [c];
      var init := Tokenize(s');
      var last := init[|init| - 1];
      assert IsRun(last);
      if IsDigit(c) != IsDigit(last[|last| - 1]) then
        SplitOpen(s', init, c);
        init + [[c]]
      else
        SplitExtend(s', init, c);
        init[..|init| - 1] + [last + [c]]
  }

  /** Removing a final one-character run leaves a maximal split of the shorter string. */
  lemma SplitDropLast(s: string, rs: seq<string>)
    requires IsRunSplit(s, rs) && |rs| > 1 && |rs[|rs| - 1]| == 1
    ensures |s| > 1 && s[|s| - 1] == rs[|rs| - 1][0]
    ensures IsRunSplit(s[..|s| - 1], rs[..|rs| - 1])
  {
    var n := |rs|;
    var pre := rs[..n - 1];
    assert Join(rs) == Join(pre) + rs[n - 1];
    assert IsRun(rs[n - 2]);
    assert Join(pre) == Join(pre[..n - 2]) + rs[n - 2];
    forall i | 0 < i < |pre|
      ensures ClassChangesAt(pre, i)
    {
      assert ClassChangesAt(rs, i);
    }
  }

  /** Removing the last character of a final run of two or more characters
      leaves a maximal split of the shorter string. */
  lemma SplitShortenLast(s: string, rs: seq<string>)
    requires IsRunSplit(s, rs) && |rs[|rs| - 1]| > 1
    ensures var last := rs[|rs| - 1];
            && |s| > 1 && s[|s| - 1] == last[|last| - 1]
            && IsRunSplit(s[..|s| - 1], rs[..|rs| - 1] + [last[..|last| - 1]])
  {
    var n := |rs|;
    var last := rs[n - 1];
    var pre := rs[..n - 1];
    var short := last[..|last| - 1];
    var rs' := pre + [short];
    assert last == short + [last[|last| - 1]];
    assert Join(rs) == Join(pre) + last;
    assert rs'[..|rs'| - 1] == pre;
    assert Join(rs') == Join(pre) + short;
    assert IsRun(last);
    forall i | 0 <= i < |rs'|
      ensures IsRun(rs'[i])
    {
      if i < n - 1 { assert rs'[i] == rs[i]; }
    }
    forall i | 0 < i < |rs'|
      ensures ClassChangesAt(rs', i)
    {
      assert ClassChangesAt(rs, i);
    }
  }

  /** The maximal-run split of a non-empty string is unique, so `Tokenize`
      is the only function meeting its contract. */
  lemma {:induction false} RunSplitUnique(s: string, rs: seq<string>)
    requires |s| > 0
    requires IsRunSplit(s, rs)
    ensures rs == Tokenize(s)
    decreases |s|
  {
    var n := |rs|;
    var last := rs[n - 1];
    if |last| == 1 && n == 1 {
      assert rs == [last];
      JoinCons(last, []);
      assert s == last && |s| == 1;
    } else if |last| == 1 {
      SplitDropLast(s, rs);
      RunSplitUnique(s[..|s| - 1], rs[..n - 1]);
      OpenedLast(s, rs);
    } else {
      SplitShortenLast(s, rs);
      RunSplitUnique(s[..|s| - 1], rs[..n - 1] + [last[..|last| - 1]]);
      ExtendedLast(s, rs);
    }
  }

  /** The step of `Tokenize` that opens a run, seen from a split whose last run
      is one character long. */
  lemma OpenedLast(s: string, rs: seq<string>)
    requires IsRunSplit(s, rs) && |rs| > 1 && |rs[|rs| - 1]| == 1 && |s| > 1
    requires rs[..|rs| - 1] == Tokenize(s[..|s| - 1]) && s[|s| - 1] == rs[|rs| - 1][0]
    ensures rs == Tokenize(s)
  {
    var n := |rs|;
    var last := rs[n - 1];
    var pre := rs[..n - 1];
    assert ClassChangesAt(rs, n - 1);
    assert IsRun(rs[n - 2]);
    assert last == [last[0]];
    assert rs == pre + [[s[|s| - 1]]];
  }

  /** The step of `Tokenize` that extends a run, seen from a split whose last run
      is two or more characters long. */
  lemma ExtendedLast(s: string, rs: seq<string>)
    requires IsRunSplit(s, rs) && |rs[|rs| - 1]| > 1 && |s| > 1
    requires var last := rs[|rs| - 1];
             && rs[..|rs| - 1] + [last[..|last| - 1]] == Tokenize(s[..|s| - 1])
             && s[|s| - 1] == last[|last| - 1]
    ensures rs == Tokenize(s)
  {
    var n := |rs|;
    var last := rs[n - 1];
    var short := last[..|last| - 1];
    var c := s[|s| - 1];
    var init := Tokenize(s[..|s| - 1]);
    assert init[|init| - 1] == short;
    assert IsRun(last);
    assert IsDigit(c) == IsDigit(short[|short| - 1]) by {
      assert c == last[|last| - 1] && short[|short| - 1] == last[|last| - 2];
    }
    assert init[..|init| - 1] == rs[..n - 1];
    Snoc(last);
    Snoc(rs);
  }

  /** A non-empty sequence is its front and its last element. */
  lemma Snoc<T>(xs: seq<T>)
    requires |xs| > 0
    ensures xs == xs[..|xs| - 1] + [xs[|xs| - 1]]
  {
  }
}

=== FILE: tokens.dfy ===
/**
 * The token list `l` of `interpret`. A digit run, once classified, is replaced
 * by a marked string ("…y1983", "…d31", "…n12"), and a month name by "…m<id>".
 * The decision table later inspects these strings, so the model keeps a tagged
 * datatype together with its exact rendering.
 */
module Tokens {
  import opened Wrappers
  import opened Decimal
  import opened Runs

  /** The HORIZONTAL ELLIPSIS that opens every tag. */
  const Mark: char := '\U{2026}'

  datatype Token =
    | Text(text: string)        // an unclassified run, or the text around a month name
    | YearTag(digits: string)   // "…y" + digits; a two-digit year is stored as "19" + digits
    | DayTag(digits: string)    // "…d" + digits
    | NumTag(digits: string)    // "…n" + digits
    | MonthTag(month: nat)      // "…m" + month number

  /**
   * The string the source keeps in `l` for this token: a run as it is, or the
   * marker, the tag's letter and its digits, which `ReadTag` takes apart again
   * (the month-name step reads its month back as `l[n][2:]`, line 194).
   */
  function Render(t: Token): (s: string)
    ensures t.Text? ==> s == t.text
    ensures !t.Text? ==> ReadTag(s) == Some(t)
  {
    match t
    case Text(s) => s
    case YearTag(d) => [Mark, 'y'] + d
    case DayTag(d) => [Mark, 'd'] + d
    case NumTag(d) => [Mark, 'n'] + d
    case MonthTag(m) => [Mark, 'm'] + Digits(m)
  }

  /** Reads a tag string: the marker, a tag letter, then the tag's digits. */
  function ReadTag(s: string): Option<Token> {
    if |s| < 2 || s[0] != Mark then None
    else if s[1] == 'y' then Some(YearTag(s[2..]))
    else if s[1] == 'd' then Some(DayTag(s[2..]))
    else if s[1] == 'n' then Some(NumTag(s[2..]))
    else if s[1] == 'm' && IsNumeral(s[2..]) then Some(MonthTag(Value(s[2..])))
    else None
  }

  /** The list of strings `l`. */
  function Layout(ts: seq<Token>): (l: seq<string>)
    ensures |l| == |ts|
    ensures forall i :: 0 <= i < |ts| ==> l[i] == Render(ts[i])
  {
    seq(|ts|, i requires 0 <= i < |ts| => Render(ts[i]))
  }

  /** `"".join(l)` */
  function Joined(ts: seq<Token>): string {
    Join(Layout(ts))
  }

  /** Runs left as they are. */
  function Texts(rs: seq<string>): (ts: seq<Token>)
    ensures |ts| == |rs|
    ensures forall i :: 0 <= i < |rs| ==> ts[i] == Text(rs[i])
  {
    seq(|rs|, i requires 0 <= i < |rs| => Text(rs[i]))
  }

  /** `s[:2] == "…y"`: the string starts like a year tag. */
  predicate YearMarked(s: string) {
    |s| >= 2 && s[..2] == [Mark, 'y']
  }

  /** `t` is what the classifier may leave in place of the run `x`: the run
      itself, or a tag that keeps its digits after the marker. */
  predicate Renders(t: Token, x: string) {
    || t == Text(x)
    || (IsNumeral(x) && (t == YearTag(x) || t == YearTag("19" + x) || t == DayTag(x) || t == NumTag(x)))
  }

  /** The characters the decision table counts. */
  predicate IsSeparator(c: char) {
    c == '-' || c == '.'
  }

  lemma LayoutAppend(a: seq<Token>, b: seq<Token>)
    ensures Layout(a + b) == Layout(a) + Layout(b)
  {
  }

  lemma JoinedAppend(a: seq<Token>, b: seq<Token>)
    ensures Joined(a + b) == Joined(a) + Joined(b)
  {
    LayoutAppend(a, b);
    JoinAppend(Layout(a), Layout(b));
  }

  /** A one-token list joins to that token's string. */
  lemma JoinedOne(t: Token)
    ensures Joined([t]) == Render(t)
  {
    assert Layout([t]) == [Render(t)];
    JoinCons(Render(t), []);
  }

  /** Tagging a digit run adds no separator. */
  lemma RendersKeepsSeparators(t: Token, x: string, c: char)
    requires Renders(t, x) && IsSeparator(c)
    ensures Count(c, Render(t)) == Count(c, x)
  {
    if t != Text(x) {
      CountNonDigit(c, x);
      var digits := if t == YearTag("19" + x) then "19" + x else x;
      assert DigitsOnly(digits);
      CountNonDigit(c, digits);
      assert Render(t) == [Mark, Render(t)[1]] + digits;
      MarkedCount(Render(t)[1], digits, c);
    }
  }

  /** The two-character marker of a tag holds no separator. */
  lemma MarkedCount(k: char, digits: string, c: char)
    requires IsSeparator(c) && !IsSeparator(k)
    ensures Count(c, [Mark, k] + digits) == Count(c, digits)
  {
    assert Count(c, [Mark, k]) == 0 by {
      assert [Mark, k][..1] == [Mark];
      assert [Mark][..0] == [];
    }
    CountConcat(c, [Mark, k], digits);
  }

  /** A token list that renders run by run keeps the separators of the runs. */
  lemma {:induction false} LayoutKeepsSeparators(ts: seq<Token>, rs: seq<string>, c: char)
    requires |ts| == |rs| && IsSeparator(c)
    requires forall i :: 0 <= i < |ts| ==> Renders(ts[i], rs[i])
    ensures Count(c, Joined(ts)) == Count(c, Join(rs))
    decreases |ts|
  {
    if |ts| > 0 {
      var n := |ts|;
      LayoutKeepsSeparators(ts[..n - 1], rs[..n - 1], c);
      assert Layout(ts)[..n - 1] == Layout(ts[..n - 1]);
      assert Joined(ts) == Joined(ts[..n - 1]) + Render(ts[n - 1]);
      CountConcat(c, Joined(ts[..n - 1]), Render(ts[n - 1]));
      CountConcat(c, Join(rs[..n - 1]), rs[n - 1]);
      RendersKeepsSeparators(ts[n - 1], rs[n - 1], c);
    }
  }
}

=== FILE: wrappers.dfy ===
/** The optional value used wherever the source uses `None` as "not set" or "no result". */
module Wrappers {

  datatype Option<+T> = None | Some(value: T)
}
